=== FILE: README.md ===
# disnake slash commands in Dafny

This project models the slash-command core of the disnake Discord library.
It covers two halves:

- **The command tree and its invocation**, from `disnake/ext/commands/slash_core.py`:
  - `options_as_route` turns the platform's nested option mapping into a route of names plus leaf arguments.
  - The registration decorators build a root command with sub-commands and sub-command groups.
  - `invoke_children` resolves a route to a `(group, sub-command)` pair.
  - `invoke` runs `prepare`, a `try` with three `except` clauses, and a `finally` that releases the concurrency slot and runs the after-invoke hooks.
  - `_call_external_error_handlers` always dispatches the `slash_command_error` event.
- **The application-command schema values**, from `disnake/app_commands.py`:
  - `OptionChoice`, `Option` and `SlashCommand`, with their constructors, mutators, `to_dict` serialisers and `from_dict` parsers.
  - The `application_command_factory` type dispatch.
  - The permission builders `from_pair`, `from_pairs` and `from_ids`, and the permission `to_dict`/`from_dict`.

Everything is a pure function over immutable datatypes:

- JSON-like payloads are `Payload.Value`. Its dicts are ordered entry lists, because Python dicts keep insertion order and the router reads the first entry.
- Python exceptions raised by a constructor or parser are the `Failure` side of a `Result`.
- The invocation is a function from the outcome of every collaborator step to:
  - a completion (returned, cancellation swallowed, or raised);
  - whether `command_failed` was set;
  - the ordered trace of the steps that ran.
- The base class `InvokableApplicationCommand` (`base_core`) is not part of this model. Its `prepare`, the callbacks, `_call_local_error_handler`, `_max_concurrency.release`, `call_after_hooks` and the cog's error hook are opaque steps that either succeed or raise.

Modules, one file each:

| file | module | contents |
|---|---|---|
| `wrappers.dfy` | `Wrappers` | `Option`, `Result`, and `Collect` for comprehensions that may raise |
| `payload.dfy` | `Payload` | payload values, the error kinds, dict lookup, Python's `True == 1` |
| `names.dfy` | `Names` | `islower()` and the slash-name pattern |
| `options.dfy` | `Options` | `OptionChoice`, `Option` |
| `commands.dfy` | `Commands` | `SlashCommand`, `User`/`MessageCommand`, the factory |
| `permissions.dfy` | `Permissions` | raw permissions and the permission-list builders |
| `router.dfy` | `Router` | `options_as_route` |
| `command_tree.dfy` | `CommandTree` | sub-commands, groups, the root, registration, resolution |
| `invocation.dfy` | `Invocation` | `invoke_children`, `invoke`, the external error handlers |

## Model

| member | source | states |
|---|---|---|
| `Names.AsWrittenAcceptsTrailingNewline` | disnake/app_commands.py:300-301 | The name assertion as written accepts exactly the valid names, plus valid names followed by one newline, because `$` matches before a final newline. |
| `Names.TrailingNewlineCounterexample` | disnake/app_commands.py:300-301 | `"ban\n"` passes the assertion as written but is not a valid slash-command name. |
| `Names.IsLowerOfPrefix` | disnake/app_commands.py:300-301 | A trailing newline does not change `islower()`: it is neither a cased letter nor upper case. |
| `Names.ValidSlashNameIff` | disnake/app_commands.py:300-302 | A valid name has 1 to 32 symbols, all from the listed set (a-z, 0-9, `-`, `_`), and at least one letter. A name of digits alone fails `islower()`. |
| `Wrappers.Collect` | disnake/app_commands.py:451-455 | A list comprehension over calls that may raise. It succeeds iff every call succeeds, with the results in order. Otherwise it raises the error of the first call that fails. |
| `Options.NormaliseChoices` | disnake/app_commands.py:104-114 | Normalising choices works as follows. `None` becomes `[]`. A dict becomes one choice per entry, in order. A list of pairs becomes one choice per pair, in order. An empty list stays empty. Choice objects are kept as given. |
| `Options.NormaliseChoicesRoundTrip` | disnake/app_commands.py:104-114 | A choice list survives being rebuilt from its pairs, whether the pairs are given as a dict or as a list. |
| `Options.NewOption` | disnake/app_commands.py:87-114 | Construction succeeds iff the name is lowercase. A missing type becomes `string` (3). Missing options become `[]`. Choices are normalised. The other fields are kept. |
| `Options.AddChoice` | disnake/app_commands.py:141-157 | Exactly one choice is appended at the end, and nothing else changes. |
| `Options.AddChoiceKeepsOption` | disnake/app_commands.py:141-157 | `add_choice` keeps an option well formed and well nested. Its `to_dict` has the new choice's dict appended at the end of `choices`. The result still round-trips through `from_dict`. |
| `Options.AddOption` | disnake/app_commands.py:159-187 | The call fails iff the nesting rule rejects the child type or the child name is not lowercase. The nesting rule: under a sub_command a type below 3 is rejected, and a missing type is a `TypeError`; under a group any type other than 1 is rejected. On success exactly one option, built by the constructor, is appended at the end. |
| `Options.AddOptionKeepsNesting` | disnake/app_commands.py:172-187 | A successful `add_option` keeps the nesting rule on the parent's options. The earlier options are unchanged. |
| `Options.ChoiceRoundTrip` | disnake/app_commands.py:57-61 | Rebuilding a choice from its `to_dict` gives the same choice. |
| `Options.ChoicesRoundTrip` | disnake/app_commands.py:137-138 | Rebuilding the serialised choice list gives the same choices, in order. |
| `Options.OptionToDict` | disnake/app_commands.py:189-201 | `to_dict` starts with `name`, `description` and `type`, in that order. It then has one more entry for each of: `required` when true, non-empty `choices`, non-empty `options`. |
| `Options.OptionToDictHeadKeys` | disnake/app_commands.py:190-194 | Looking up `name`, `description` and `type` in `to_dict` gives the option's own name, description and type number. |
| `Options.OptionToDictOptionalKeys` | disnake/app_commands.py:195-200 | `required` is present, as `True`, iff the option is required. `choices` is present iff there are choices, and `options` iff there are sub-options; each holds the serialised list. |
| `Options.OptionFromDict` | disnake/app_commands.py:133-139 | A payload that is not a mapping is rejected. Every option parsed from a payload is well formed: its name is lowercase, and so are the names of its sub-options at every depth. |
| `Options.OptionToDictKeys` | disnake/app_commands.py:189-201 | `to_dict` always has `name`, `description` and `type`. It has `required` only when true, and `choices`/`options` only when non-empty. It has no other keys. |
| `Options.OptionToDictOnlyKeys` | disnake/app_commands.py:189-201 | `to_dict` writes no key the constructor does not accept. |
| `Options.DecodesOfKeys` | disnake/app_commands.py:133-139 | In a payload holding an option's encoded values, `from_dict` decodes the description, type, required flag and choices back to those values. |
| `Options.OptionToDictDecodes` | disnake/app_commands.py:133-139 | Every value `to_dict` writes decodes back to the field it came from. |
| `Options.BindOptionOfKeys` | disnake/app_commands.py:139 | When every key is accepted and decodes, `Option(**payload)` calls the constructor with exactly the decoded values. |
| `Options.CollectSubOptions` | disnake/app_commands.py:135-136 | When each serialised sub-option parses back to itself, the comprehension collects exactly the sub-options. |
| `Options.OptionFromParsedOfToDict` | disnake/app_commands.py:133-139 | For a lowercase option, binding the serialised keys back through the constructor gives the option, given its rebuilt sub-options. |
| `Options.OptionRoundTrip` | disnake/app_commands.py:133-139 | `Option.from_dict(o.to_dict()) == o` for any option whose names are lowercase at every level. Omitted keys fall back to the constructor defaults, and nested options are rebuilt recursively. |
| `Options.OptionsRoundTrip` | disnake/app_commands.py:133-136 | A serialised list of well-formed options parses back to the same list. |
| `Commands.NewSlashCommand` | disnake/app_commands.py:290-307 | Construction succeeds iff the name is a valid slash-command name. Missing options become `[]`. The other fields are kept. |
| `Commands.SlashAddOption` | disnake/app_commands.py:331-353 | `SlashCommand.add_option` appends one option built by the `Option` constructor, with no nesting check. It fails iff the name is not lowercase. |
| `Commands.SlashAddOptionKeepsWellFormed` | disnake/app_commands.py:331-353 | `add_option` keeps a slash command well formed when the sub-options it is handed are, so the command still round-trips afterwards. |
| `Commands.SlashToDict` | disnake/app_commands.py:355-365 | `to_dict` starts with `type` 1, `description` and the serialised `options`, in that order. It has one more entry when `default_permission` is false, and one more when the name is not hidden. |
| `Commands.SlashToDictKeys` | disnake/app_commands.py:355-365 | `to_dict` always has `type`, `description` and `options`. It has `default_permission: False` only when the permission is false. It has `name` iff `hide_name` is false. |
| `Commands.SlashToDictHeadKeys` | disnake/app_commands.py:356-360 | `to_dict` always has `type` (chat input), `description` and `options`, with the command's values. |
| `Commands.SlashToDictOptionalKeys` | disnake/app_commands.py:361-364 | `default_permission: False` is present only when the permission is false. `name` is present iff `hide_name` is false. |
| `Commands.SlashToDictNoIds` | disnake/app_commands.py:355-365 | `to_dict` never writes `id` or `application_id`. |
| `Commands.SlashRoundTrip` | disnake/app_commands.py:315-329 | `from_dict(c.to_dict())` returns the command up to the ids, so it equals `c` under `SlashCommand.__eq__`. |
| `Commands.SlashRoundTripExactIff` | disnake/app_commands.py:315-329 | The slash round trip is exact iff the command carries no ids, because `to_dict` drops them. |
| `Commands.SlashHiddenNameFails` | disnake/app_commands.py:323-329 | A dict serialised with `hide_name` cannot be parsed back: the constructor misses `name`. |
| `Commands.SlashFromDict` | disnake/app_commands.py:324-329 | A payload that is not a mapping is rejected. A payload whose `type` (default 1) is not equal to 1 gives `None`. Every command parsed from a payload has a valid slash-command name and well-formed options. |
| `Commands.SlashFromDictNoneIff` | disnake/app_commands.py:324-326 | `SlashCommand.from_dict` returns `None` iff `type` (default 1) is not equal to 1 in Python's sense, where `True == 1`. |
| `Commands.ContextFromDictNoneIff` | disnake/app_commands.py:243-245 | `User`/`MessageCommand.from_dict` returns `None` iff the popped `type` (default 0) differs from the class's tag. |
| `Commands.ContextFromDict` | disnake/app_commands.py:243-245 | A payload that is not a mapping is rejected. A command is returned only when the popped `type` (default 0) equals the class's tag. It carries that tag and the payload's `name`. `MessageCommand.from_dict` (lines 269-271) is the same function with tag 3. |
| `Commands.ContextRoundTrip` | disnake/app_commands.py:236-245 | A user or message command parses back from its `to_dict`, up to the ids. |
| `Commands.FactoryDispatch` | disnake/app_commands.py:22-29 | The factory dispatches on `type` (default 1). Tag 1 gives exactly what `SlashCommand.from_dict` gives, tag 2 what `UserCommand.from_dict` gives, and tag 3 what `MessageCommand.from_dict` gives, failures included. Any other tag gives `None`. |
| `Commands.CommandFromDict` | disnake/app_commands.py:22-29 | A payload that is not a mapping is rejected. A slash command the factory returns is well formed, and a context-menu command it returns has type 2 or 3. |
| `Commands.FactoryRoundTrip` | disnake/app_commands.py:22-28 | The factory rebuilds every well-formed command of each kind from its `to_dict`, as the same kind. |
| `Permissions.FromPair` | disnake/app_commands.py:392-401 | The call fails iff the target is neither a role nor a user, or the permission is not a bool. A role gets type 1 and a user gets type 2. |
| `Permissions.FromPairs` | disnake/app_commands.py:441-456 | The call succeeds iff every pair converts. The result is the converted pairs, in order. |
| `Permissions.FromPairsFailsAtFirst` | disnake/app_commands.py:451-454 | A failing `from_pairs` raises the error of the first pair, in order, that does not convert; every earlier pair converts. |
| `Permissions.FromIds` | disnake/app_commands.py:459-480 | The result has \|roles\|+\|users\| entries. All role entries (type 1) come first and all user entries (type 2) after, each in input order. |
| `Permissions.IdsAsPairs` | disnake/app_commands.py:471-479 | The `(target, permission)` pairs `from_ids` stands for: every role first, then every user, in input order. |
| `Permissions.FromIdsAgreesWithFromPairs` | disnake/app_commands.py:459-480 | A permission list laid out as `from_ids` lays it out is exactly what `from_pairs` builds from the corresponding role and user pairs. Its preconditions are `FromIds`' postconditions, so `from_ids` and `from_pairs` agree on every input. |
| `Permissions.RawToDict` | disnake/app_commands.py:411-416 | `to_dict` has exactly the keys `id`, `type` and `permission`, holding the permission's own id, target type and flag. |
| `Permissions.RawFromDict` | disnake/app_commands.py:404-409 | `from_dict` succeeds iff the payload is a mapping with `id`, `type` and `permission`. A missing `id` is a `KeyError` for `id`. On success the three fields are the payload's values. |
| `Permissions.RawRoundTrip` | disnake/app_commands.py:404-416 | `from_dict(p.to_dict())` preserves id, type and permission. |
| `Permissions.PermissionsToDict` | disnake/app_commands.py:489-492 | `to_dict` has the single key `permissions`, holding one serialised raw permission per entry, in order. |
| `Permissions.PermissionsFromDict` | disnake/app_commands.py:483-487 | A mapping without `permissions` is a `KeyError` for that key. On success the result has one raw permission per item of the `permissions` list, each parsed from the item at the same position. |
| `Permissions.PermissionsRoundTrip` | disnake/app_commands.py:483-492 | A permission list survives `to_dict`/`from_dict` unchanged. |
| `Router.OptionsAsRoute` | disnake/ext/commands/slash_core.py:23-30 | The route and kwargs are a path through first entries to the kwargs. The kwargs are a leaf: empty, or the first value is not a dict. An empty mapping routes to `((), {})`, and a mapping whose first value is a scalar routes to `()` with the whole mapping as the kwargs. |
| `Router.RouteIsUniqueLeafPath` | disnake/ext/commands/slash_core.py:23-30 | A path that reaches a leaf mapping through first entries is exactly the route, and that mapping is the kwargs. So the route length is the depth of the first-entry dict chain. |
| `Router.NestRoundTrip` | disnake/ext/commands/slash_core.py:26-29 | Nesting leaf kwargs under a path and routing the result gives back the path and the kwargs. |
| `Router.RouteIgnoresLaterEntries` | disnake/ext/commands/slash_core.py:24-30 | Only the first entry is inspected. Later entries never change the route, and they appear in the kwargs only when the route is empty. |
| `Router.RouteDepths` | disnake/ext/commands/slash_core.py:23-30 | Arguments at depth 0, 1 and 2 route to `()`, `(sub,)` and `(group, sub)`. |
| `CommandTree.NewSubCommand` | disnake/ext/commands/slash_core.py:82-100 | Construction succeeds iff the name is lowercase. The descriptor is a `sub_command` option with description `description or '-'` and options `options or []`. There is no qualified name yet. |
| `CommandTree.NewGroup` | disnake/ext/commands/slash_core.py:33-43 | Construction succeeds iff the name is lowercase. The group's option has type `sub_command_group`, description `-` and no options. There are no children and no qualified name yet. |
| `CommandTree.NewRoot` | disnake/ext/commands/slash_core.py:104-127 | Construction succeeds iff the name is a valid slash-command name. The body has description `description or '-'` and options `options or []`. There are no children. |
| `CommandTree.SlashCommandDecorator` | disnake/ext/commands/slash_core.py:304-320 | A non-coroutine callback is a `TypeError`, and so is a callback that is already a command. Otherwise the result is exactly the root constructor's for the same arguments. It succeeds iff the callback qualifies and the name is valid, and the new root has no children. |
| `CommandTree.SlashCommandDecoratorConsistent` | disnake/ext/commands/slash_core.py:304-320 | Every root the decorator returns is consistent. |
| `CommandTree.RegisterSubCommand` | disnake/ext/commands/slash_core.py:159-175 | The first registration clears the flat options, even when the name is then rejected. Later registrations keep them. On success the child is exactly what the sub-command constructor builds from the same name, description, options and connectors, with the qualified name `root + " " + name`. `children[name]` is set to it and exactly its option is appended. Nothing else in the root changes. |
| `CommandTree.RegisterGroup` | disnake/ext/commands/slash_core.py:195-203 | The same bookkeeping for a group: the clear-once rule, `children[name]`, and the group's option appended. The group is exactly what the group constructor builds from the name (no children, an empty `sub_command_group` option with description `-`), with the qualified name `root + " " + name`. |
| `CommandTree.GroupAddSub` | disnake/ext/commands/slash_core.py:64-77 | Inside a group, the new sub-command is exactly what the sub-command constructor builds from the same arguments, with the qualified name `(group.qualified_name or group.name) + " " + name`. `children[name]` is set to it and exactly its option is appended to the group's option. |
| `CommandTree.RegisterSubUnderGroup` | disnake/ext/commands/slash_core.py:64-77 | The sub-command is exactly what the sub-command constructor builds, with the group-based qualified name. The child under the group's key is exactly the group that `GroupAddSub` returns, at the same slot. The root schema's entry at that slot is exactly that group's option, so the sub-command added to a registered group also appears there. Every other child and schema entry is unchanged. |
| `CommandTree.RegisterSubCommandKeepsConsistent` | disnake/ext/commands/slash_core.py:159-175 | Registering a sub-command keeps three views in agreement: the children, the schema slots and the qualified names. |
| `CommandTree.RegisterGroupKeepsConsistent` | disnake/ext/commands/slash_core.py:195-203 | Registering a group keeps the three views in agreement. |
| `CommandTree.GroupAddSubKeepsConsistent` | disnake/ext/commands/slash_core.py:64-77 | Adding a sub-command keeps a group's children, qualified names and option list in agreement. |
| `CommandTree.RegisterSubUnderGroupKeepsConsistent` | disnake/ext/commands/slash_core.py:73-76 | Adding a sub-command to a registered group keeps the whole root consistent. |
| `CommandTree.AddChildKeepsConsistent` | disnake/ext/commands/slash_core.py:159-203 | Both root registrations keep the root consistent. The new child takes the next slot after the kept options, and its option is appended there. |
| `CommandTree.ReplaceGroupKeepsConsistent` | disnake/ext/commands/slash_core.py:73-76 | Replacing a group by a consistent copy keeps the root consistent. The copy keeps the name, qualified name and slot, and its option is written back to that slot. |
| `CommandTree.NewRootConsistent` | disnake/ext/commands/slash_core.py:117-127 | A freshly built root is consistent. |
| `CommandTree.DistinctSlotsBound` | disnake/ext/commands/slash_core.py:172-173 | Children with distinct schema slots below `n` number at most `n`. |
| `CommandTree.ConsistentSchemaCoversChildren` | disnake/ext/commands/slash_core.py:172-173 | In a consistent root the schema has at least as many entries as there are children. |
| `CommandTree.ReRegistrationDivergence` | disnake/ext/commands/slash_core.py:172-173 | Registering the same name twice leaves one child but two schema entries. |
| `CommandTree.Resolve` | disnake/ext/commands/slash_core.py:216-227 | Route length 0 gives `(None, None)`. Length 1 gives `children.get(r0)`. Length 2 gives the group and `group.children.get(r1)`. A missing key gives `None`. A route longer than 2 is an unbound-local fault. A length-2 route through a plain sub-command is an attribute fault. At length 1 the leaf is the child itself, sub-command or group. At length 2 through a group the leaf is that group's sub-command, or `None` if it has none of that name. |
| `CommandTree.RegisteredSubCommandResolves` | disnake/ext/commands/slash_core.py:171-173 | A sub-command registered under the root is what its one-name route resolves to. |
| `CommandTree.RegisteredGroupSubCommandResolves` | disnake/ext/commands/slash_core.py:73-76 | A sub-command registered under a group is what the route `(group, name)` resolves to. |
| `CommandTree.ResolvedQualifiedName` | disnake/ext/commands/slash_core.py:73-74 | In a consistent root, the sub-command reached by `(group, sub)` has the qualified name `root group sub`. |
| `Invocation.InvokeChildren` | disnake/ext/commands/slash_core.py:216-241 | `invoke_children` runs at most four steps, all of them group or leaf steps. A route longer than 2 raises an unbound-local error and a two-name route through a plain sub-command raises an attribute error, both before any step. An empty route runs nothing. A route that resolves only a sub-command runs exactly that sub-command's guarded call with the routed kwargs: on an `Exception` its local handler runs and the error, or the handler's, is re-raised. A resolved group runs its guarded call first; if it raises, that is the whole result, and otherwise the sub-command's guarded call follows when there is one. |
| `Invocation.Invoke` | disnake/ext/commands/slash_core.py:243-265 | `invoke` always starts with `prepare`. A failing `prepare` raises its own error, leaves `command_failed` unset, and runs nothing else. Otherwise the root callback comes next and the trace ends with the release or the after-hooks. A normal return never has `command_failed` set. A swallowed cancellation always has it set. The lemma rows below carry the rest of its meaning. |
| `Invocation.TryBody` | disnake/ext/commands/slash_core.py:247-251 | Without children, the step is the root callback's, called with the options. With children, a raising root callback is the whole step, called without arguments. A succeeding one is followed by `invoke_children`, whose outcome becomes the step's. |
| `Invocation.PrepareFailureSkipsFinalization` | disnake/ext/commands/slash_core.py:243-246 | A failing `prepare` raises as is, before the `try`. There is no release, no after-hooks, and no `command_failed`. |
| `Invocation.FinalizationRunsOnce` | disnake/ext/commands/slash_core.py:261-265 | After `prepare`, the slot is released exactly once when one is set. The after-hooks run exactly once, unless the release itself raised. Both come last, release first. |
| `Invocation.InvokeTraceShape` | disnake/ext/commands/slash_core.py:243-265 | After a successful `prepare`, the trace is a prefix with no release and no after-hooks, followed by the `finally` steps for the outcome of the `try` body. |
| `Invocation.FinallyCounts` | disnake/ext/commands/slash_core.py:261-265 | Appended to such a prefix, the `finally` steps add exactly one release when a slot is set, and one after-hooks call unless the release raised. |
| `Invocation.OutcomeTaxonomy` | disnake/ext/commands/slash_core.py:246-260 | Success returns. A `CommandError` is re-raised unchanged. A cancellation returns. Any other `Exception` is raised wrapped in `CommandInvokeError`. Other base exceptions pass through. `command_failed` is set exactly in the three caught cases. |
| `Invocation.OnlyCommandErrorsEscape` | disnake/ext/commands/slash_core.py:252-260 | With finalization succeeding, `invoke` raises only `CommandError`s or non-`Exception` base exceptions. |
| `Invocation.FinalizationFailureWins` | disnake/ext/commands/slash_core.py:261-265 | A release or after-hook that raises replaces the `try`'s outcome. |
| `Invocation.FlatCommandGetsOptions` | disnake/ext/commands/slash_core.py:247-260 | Without children, the root callback alone runs, with the top-level options. The `try` step's outcome is the root callback's. `command_failed` is what the `except` clauses make of it. With finalization succeeding, so is `invoke`'s completion. |
| `Invocation.RootFailureSkipsChildren` | disnake/ext/commands/slash_core.py:247-260 | With children, a failing root callback skips the tree walk. The `try` raises the root callback's error, and `command_failed` and, with finalization succeeding, the completion follow from it through the `except` clauses. |
| `Invocation.ChildrenCallOrder` | disnake/ext/commands/slash_core.py:229-260 | For a route that resolves a group and a sub-command, with the group succeeding, the order is prepare, then the root callback without arguments, then the group, then the leaf with the routed kwargs. The `try` step's outcome is the leaf's guarded call. `command_failed` and, with finalization succeeding, the completion follow from it through the `except` clauses. |
| `Invocation.SubCommandCallOrder` | disnake/ext/commands/slash_core.py:236-241 | For a one-name route to a child of the root, the order is prepare, then the root callback without arguments, then that child with the routed kwargs. A child that raises an `Exception` is followed by its local handler, and the `try` body raises the handler's error if it raised, the child's otherwise. `command_failed` and, with finalization succeeding, the completion follow from the child's guarded call through the `except` clauses. |
| `Invocation.RegisteredSubCommandIsInvoked` | disnake/ext/commands/slash_core.py:216-238 | Once a sub-command is registered on the root, options that nest leaf arguments under its name make `invoke` run prepare, the root callback, and then that sub-command with exactly those arguments. |
| `Invocation.GroupFailureSkipsLeaf` | disnake/ext/commands/slash_core.py:229-234 | A failing group gets its local handler only if the error is an `Exception`. The leaf is never invoked. The `try` raises the group's error, or the handler's. |
| `Invocation.CancelledGroupIsSwallowed` | disnake/ext/commands/slash_core.py:255-257 | A cancelled group skips its local handler and the leaf. `invoke` returns with `command_failed` set, after finalization. |
| `Invocation.LookupFaultIsInvokeError` | disnake/ext/commands/slash_core.py:216-228 | A route the tree cannot resolve surfaces as a `CommandInvokeError` wrapping the fault, with `command_failed` set and no child invoked. |
| `Invocation.ExternalErrorHandlers` | disnake/ext/commands/slash_core.py:206-214 | `slash_command_error` is dispatched exactly once, last, in every case. It is preceded by the cog hook only when the cog overrides it. The call raises iff that hook raises. |
| `Invocation.BanTempGroup` | disnake/ext/commands/slash_core.py:195-203 | Registering group `temp` on root `ban` succeeds. The group's qualified name is `ban temp`, it is the only child and takes slot 0, and the schema has one entry. |
| `Invocation.BanTempAddTree` | disnake/ext/commands/slash_core.py:64-77 | Registering root `ban`, group `temp` and sub-command `add` succeeds. The sub-command's qualified name is `ban temp add`. |
| `Invocation.BanTempAddRun` | disnake/ext/commands/slash_core.py:216-265 | On that tree, `/ban temp add user:1` runs prepare, `ban`, `temp`, then `add` with `{user: 1}`, then the after-hooks, and returns. |

## Left out

- The base class `InvokableApplicationCommand` (`base_core`) is not part of this model. Where slash_core depends on it, the model says so:
  - Name defaulting to the function's name: names are given.
  - The root's qualified name: it is a parameter of the root constructor.
  - `prepare`, `_max_concurrency.release`, `call_after_hooks`, `_call_local_error_handler` and `_get_overridden_method`: opaque steps that succeed or raise.
- What `command_failed` means after a failing `prepare` depends on `prepare` itself, which is defined in `base_core` and not modelled. The model reports only what `invoke` sets.
- `connectors` are stored and never applied. The rename tables are applied by the base class.
- asyncio: coroutine detection and the `__command_flag__` check are boolean inputs of `SlashCommandDecorator`. Scheduling and concurrency-slot sharing across invocations are not modelled.
- Dispatching `slash_command_error` only schedules listeners, so the model assumes it does not raise.
- Option and command types are plain integers. `try_enum`, `enum_if_int` and `try_enum_to_int` are identities here, and the `or OptionType.string` default applies only to a missing type.
- Names are ASCII. `\w` and `islower()` are not modelled on other Unicode characters.
- `from_pair`'s `isinstance` checks against `Role` and `User` use a tagged `Target`, because those classes are not part of this model.
- `__repr__`, the commented-out choice connectors in `add_choice`, and the `permissions` attribute a `SlashCommand` creates are left out.
- `Options.NormaliseChoices`: a tuple that is empty, or whose first element is not a pair, is kept as a tuple by the constructor; the model stores it as a list. So an empty tuple `()` becomes `[]` here, although `() != []` under `Option.__eq__`. A non-empty tuple of pairs becomes a list in both.
- `Options.AddChoice`: always succeeds in the model. On an option whose choices were kept as a tuple, the code's `append` raises `AttributeError`.
- `Options.OptionRoundTrip`: choices are compared as lists, so the tuple cases above are outside it.
- Keys the payload parsers do not know are modelled as they fail: `Option(**payload)` rejects an unexpected keyword. `SlashCommand(**payload)` passes extra keys to the base class, and only the ids are read from them.
- Payload values are typed. Ids are integers or decimal strings, and other string forms (such as `""`, which Python would keep as is) are rejected. A name or description that is not a string, and a `default_permission` that is not a bool, are rejected with `UnsupportedValue`, where Python would store them.
- `Options.OptionFromDict`, `Commands.SlashFromDict` and `Permissions.PermissionsFromDict`: a value for `options`, `choices` or `permissions` that is not a list is rejected with `UnsupportedValue`. That includes `{}` and `""`, which Python iterates as empty, so the code succeeds with no entries (app_commands.py:135-138 and 485-486). A non-empty dict or string would be iterated by key or by character.
- A group handle that outlived the re-registration of its name is left out. `RegisterSubUnderGroup` requires the group to be the live child under that key.
- `Commands.NewSlashCommand`: uses the corrected name rule from the Findings row, so it rejects a name that ends in a final `"\n"`, which the code as written accepts.
- `CommandTree.NewRoot`: builds its body with `Commands.NewSlashCommand`, so it too rejects a name that ends in a final `"\n"`, which the code as written accepts.
- `invoke_children` faults that the source hits by accident are modelled as the exceptions they raise: an unbound local for routes longer than 2, and a missing `children` attribute on a sub-command. They are not modelled as the source's exact messages.

Three behaviours of the code that are easy to misread:

- `prepare` runs before the `try` (slash_core.py:244). A failing `prepare` therefore skips the release and the after-hooks.
- A local error handler that raises replaces the error that is propagating (slash_core.py:233-234, 240-241).
- On Python 3.8 and later, `asyncio.CancelledError` is not an `Exception`. The `except Exception` clauses in `invoke_children` therefore do not catch it, and the local error handler does not run for a cancellation.

## Findings

| source | as written | input that shows it | evidently intended | confidence | as-written member | corrected member |
|---|---|---|---|---|---|---|
| disnake/app_commands.py:300-301 | `re.match(r"^[\w-]{1,32}$", name)`, where `$` also matches before a newline that ends the string | `"ban\n"`; also any valid 32-character name followed by `"\n"` (33 characters) | only 1 to 32 characters from `[\w-]`, as the assertion message says (`re.fullmatch` or `\Z`) | high (not executed) | `Names.TrailingNewlineCounterexample` | `Commands.NewSlashCommand` |

=== FILE: command_tree.dfy ===
/**
 The command tree of disnake's slash_core module: a root slash command
 (`InvokableSlashCommand`) whose children are sub-commands and
 sub-command groups, each group holding sub-commands of its own. Every
 registration decorator updates three views at once: the `children` map,
 the schema option list sent to the platform, and the qualified names.

 Object identity: a group's `option` is the very object appended to the
 root's `body.options`, so a sub-command added to the group later shows
 up in the root schema too. The model records, for every child, the
 index (`slot`) of its option in the root schema, and writes a group's
 new option back to that slot.
 */
module CommandTree {
  import opened Wrappers
  import opened Payload
  import opened Names
  import opened Options
  import opened Commands

  /** Python's `s or fallback` for an optional string: `None` and `""` are falsy. */
  function StrOr(s: Option<string>, fallback: string): (r: string)
    ensures s.Some? && s.value != "" ==> r == s.value
    ensures s.None? || s.value == "" ==> r == fallback
  {
    if s.Some? && s.value != "" then s.value else fallback
  }

  datatype SubCommand = SubCommand(
    name: string,
    qualifiedName: Option<string>,
    option: CommandOption,
    connectors: Option<map<string, string>>)

  datatype Group = Group(
    name: string,
    qualifiedName: Option<string>,
    children: map<string, SubCommand>,
    option: CommandOption)

  /** A child of the root, with the index of its option in the root schema. */
  datatype Child = SubChild(sub: SubCommand, slot: nat) | GroupChild(group: Group, slot: nat)

  datatype Root = Root(
    name: string,
    qualifiedName: string,
    body: SlashCommand,
    children: map<string, Child>,
    connectors: Option<map<string, string>>,
    guildIds: Option<seq<int>>,
    autoSync: bool)

  /**
   The outcome of a registration decorator. The root is returned even on
   failure: the first registration clears the flat options before the
   child's constructor can reject its name.
   */
  datatype Registration<T> = Registration(root: Root, result: Result<T, Error>)

  function NameOf(c: Child): string {
    match c
    case SubChild(s, _) => s.name
    case GroupChild(g, _) => g.name
  }

  function QualifiedNameOf(c: Child): Option<string> {
    match c
    case SubChild(s, _) => s.qualifiedName
    case GroupChild(g, _) => g.qualifiedName
  }

  function OptionOf(c: Child): CommandOption {
    match c
    case SubChild(s, _) => s.option
    case GroupChild(g, _) => g.option
  }

  // ---------------------------------------------------------------- construction

  /** `SubCommand.__init__`: the descriptor is a `sub_command` option. */
  function NewSubCommand(
    name: string,
    description: Option<string>,
    options: Option<seq<CommandOption>>,
    connectors: Option<map<string, string>>
  ): (r: Result<SubCommand, Error>)
    ensures r.Success? <==> IsLower(name)
    ensures r.Success? ==>
      && r.value.name == name
      && r.value.qualifiedName.None?
      && r.value.connectors == connectors
      && r.value.option == CommandOption(name, Some(StrOr(description, "-")), SUB_COMMAND, false, [],
                                         if options.Some? then options.value else [])
  {
    var o :- NewOption(name, Some(StrOr(description, "-")), Some(SUB_COMMAND), false, NoChoices, options);
    Success(SubCommand(name, None, o, connectors))
  }

  /** `SubCommandGroup.__init__`: a `sub_command_group` option with description `-` and no options. */
  function NewGroup(name: string): (r: Result<Group, Error>)
    ensures r.Success? <==> IsLower(name)
    ensures r.Success? ==>
      && r.value.name == name
      && r.value.qualifiedName.None?
      && r.value.children == map[]
      && r.value.option == CommandOption(name, Some("-"), SUB_COMMAND_GROUP, false, [], [])
  {
    var o :- NewOption(name, Some("-"), Some(SUB_COMMAND_GROUP), false, NoChoices, Some([]));
    Success(Group(name, None, map[], o))
  }

  /** `InvokableSlashCommand.__init__`; the qualified name comes from the base class. */
  function NewRoot(
    name: string,
    qualifiedName: string,
    description: Option<string>,
    options: Option<seq<CommandOption>>,
    defaultPermission: bool,
    guildIds: Option<seq<int>>,
    connectors: Option<map<string, string>>,
    autoSync: bool
  ): (r: Result<Root, Error>)
    ensures r.Success? <==> IsValidSlashName(name)
    ensures r.Success? ==>
      && r.value.name == name
      && r.value.qualifiedName == qualifiedName
      && r.value.children == map[]
      && r.value.body.name == name
      && r.value.body.description == StrOr(description, "-")
      && r.value.body.options == (if options.Some? then options.value else [])
      && r.value.body.defaultPermission == defaultPermission
      && r.value.body.id.None? && r.value.body.applicationId.None?
      && r.value.guildIds == guildIds && r.value.connectors == connectors && r.value.autoSync == autoSync
  {
    var body :- NewSlashCommand(name, StrOr(description, "-"), options, defaultPermission, None, None);
    Success(Root(name, qualifiedName, body, map[], connectors, guildIds, autoSync))
  }

  /**
   The `slash_command` decorator: a callback that is not a coroutine
   function, or is already a command, is refused with a `TypeError`.
   */
  function SlashCommandDecorator(
    isCoroutine: bool,
    alreadyCommand: bool,
    callbackQualname: string,
    name: string,
    qualifiedName: string,
    description: Option<string>,
    options: Option<seq<CommandOption>>,
    defaultPermission: bool,
    guildIds: Option<seq<int>>,
    connectors: Option<map<string, string>>,
    autoSync: bool
  ): (r: Result<Root, Error>)
    ensures !isCoroutine ==> r == Failure(TypeMismatch("<" + callbackQualname + "> must be a coroutine function"))
    ensures isCoroutine && alreadyCommand ==> r == Failure(TypeMismatch("Callback is already a command."))
    ensures r.Success? <==> isCoroutine && !alreadyCommand && IsValidSlashName(name)
    ensures r.Success? ==>
      && r.value.children == map[]
      && r.value.body.name == name
      && r.value.body.description == StrOr(description, "-")
      && r.value.body.options == (if options.Some? then options.value else [])
    ensures isCoroutine && !alreadyCommand ==>
      r == NewRoot(name, qualifiedName, description, options, defaultPermission, guildIds, connectors, autoSync)
  {
    if !isCoroutine then Failure(TypeMismatch("<" + callbackQualname + "> must be a coroutine function"))
    else if alreadyCommand then Failure(TypeMismatch("Callback is already a command."))
    else NewRoot(name, qualifiedName, description, options, defaultPermission, guildIds, connectors, autoSync)
  }

  // ---------------------------------------------------------------- registration

  /** The schema options a registration keeps: none while the root has no children yet. */
  function KeptOptions(root: Root): seq<CommandOption> {
    if |root.children| == 0 then [] else root.body.options
  }

  function ClearIfFirst(root: Root): Root {
    root.(body := root.body.(options := KeptOptions(root)))
  }

  /** Everything a registration leaves alone. */
  predicate SameHeader(a: Root, b: Root) {
    && a.name == b.name && a.qualifiedName == b.qualifiedName
    && a.body.name == b.body.name && a.body.description == b.body.description
    && a.body.defaultPermission == b.body.defaultPermission
    && a.body.id == b.body.id && a.body.applicationId == b.body.applicationId
    && a.connectors == b.connectors && a.guildIds == b.guildIds && a.autoSync == b.autoSync
  }

  /** `InvokableSlashCommand.sub_command(...)(func)`. */
  function RegisterSubCommand(
    root: Root,
    name: string,
    description: Option<string>,
    options: Option<seq<CommandOption>>,
    connectors: Option<map<string, string>>
  ): (reg: Registration<SubCommand>)
    ensures SameHeader(root, reg.root)
    ensures reg.result.Success? <==> IsLower(name)
    ensures reg.result.Failure? ==>
      reg.root.children == root.children && reg.root.body.options == KeptOptions(root)
    ensures reg.result.Success? ==>
      && reg.result.value.name == name
      && reg.result.value.qualifiedName == Some(root.qualifiedName + " " + name)
      && reg.result.value.option.name == name
      && reg.result.value.option.optionType == SUB_COMMAND
      && reg.root.children == root.children[name := SubChild(reg.result.value, |KeptOptions(root)|)]
      && reg.root.body.options == KeptOptions(root) + [reg.result.value.option]
    ensures reg.result.Success? ==>
      && NewSubCommand(name, description, options, connectors).Success?
      && reg.result.value == NewSubCommand(name, description, options, connectors).value
                               .(qualifiedName := Some(root.qualifiedName + " " + name))
  {
    var cleared := ClearIfFirst(root);
    match NewSubCommand(name, description, options, connectors)
    case Failure(e) => Registration(cleared, Failure(e))
    case Success(s0) =>
      var s := s0.(qualifiedName := Some(root.qualifiedName + " " + s0.name));
      var slot := |cleared.body.options|;
      Registration(
        cleared.(children := cleared.children[s.name := SubChild(s, slot)],
                 body := cleared.body.(options := cleared.body.options + [s.option])),
        Success(s))
  }

  /** `InvokableSlashCommand.sub_command_group(...)(func)`. */
  function RegisterGroup(root: Root, name: string): (reg: Registration<Group>)
    ensures SameHeader(root, reg.root)
    ensures reg.result.Success? <==> IsLower(name)
    ensures reg.result.Failure? ==>
      reg.root.children == root.children && reg.root.body.options == KeptOptions(root)
    ensures reg.result.Success? ==>
      && reg.result.value.name == name
      && reg.result.value.qualifiedName == Some(root.qualifiedName + " " + name)
      && reg.result.value.children == map[]
      && reg.result.value.option.name == name
      && reg.result.value.option.optionType == SUB_COMMAND_GROUP
      && reg.result.value.option.options == []
      && reg.root.children == root.children[name := GroupChild(reg.result.value, |KeptOptions(root)|)]
      && reg.root.body.options == KeptOptions(root) + [reg.result.value.option]
    ensures reg.result.Success? ==>
      && NewGroup(name).Success?
      && reg.result.value == NewGroup(name).value.(qualifiedName := Some(root.qualifiedName + " " + name))
  {
    var cleared := ClearIfFirst(root);
    match NewGroup(name)
    case Failure(e) => Registration(cleared, Failure(e))
    case Success(g0) =>
      var g := g0.(qualifiedName := Some(root.qualifiedName + " " + g0.name));
      var slot := |cleared.body.options|;
      Registration(
        cleared.(children := cleared.children[g.name := GroupChild(g, slot)],
                 body := cleared.body.(options := cleared.body.options + [g.option])),
        Success(g))
  }

  /** `SubCommandGroup.sub_command(...)(func)` on the group alone. */
  function GroupAddSub(
    g: Group,
    name: string,
    description: Option<string>,
    options: Option<seq<CommandOption>>,
    connectors: Option<map<string, string>>
  ): (r: Result<(Group, SubCommand), Error>)
    ensures r.Success? <==> IsLower(name)
    ensures r.Success? ==>
      && r.value.1.name == name
      && r.value.1.qualifiedName == Some(StrOr(g.qualifiedName, g.name) + " " + name)
      && r.value.1.option.name == name
      && r.value.1.option.optionType == SUB_COMMAND
      && r.value.0 == g.(children := g.children[name := r.value.1],
                        option := g.option.(options := g.option.options + [r.value.1.option]))
    ensures r.Success? ==>
      && NewSubCommand(name, description, options, connectors).Success?
      && r.value.1 == NewSubCommand(name, description, options, connectors).value
                        .(qualifiedName := Some(StrOr(g.qualifiedName, g.name) + " " + name))
  {
    var s0 :- NewSubCommand(name, description, options, connectors);
    var s := s0.(qualifiedName := Some(StrOr(g.qualifiedName, g.name) + " " + s0.name));
    Success((g.(children := g.children[s.name := s],
                option := g.option.(options := g.option.options + [s.option])), s))
  }

  /**
   The same decorator seen from the root: the group registered under
   `key` gains the sub-command, and because the root schema holds the
   group's option object, the schema entry at the group's slot changes
   with it. Nothing else in the root changes.
   */
  function RegisterSubUnderGroup(
    root: Root,
    key: string,
    name: string,
    description: Option<string>,
    options: Option<seq<CommandOption>>,
    connectors: Option<map<string, string>>
  ): (r: Result<(Root, SubCommand), Error>)
    requires key in root.children && root.children[key].GroupChild?
    requires root.children[key].slot < |root.body.options|
    ensures r.Success? <==> IsLower(name)
    ensures r.Success? ==>
      var (root', s) := r.value;
      var g := root.children[key].group;
      var slot := root.children[key].slot;
      && SameHeader(root, root')
      && NewSubCommand(name, description, options, connectors).Success?
      && s == NewSubCommand(name, description, options, connectors).value
                .(qualifiedName := Some(StrOr(g.qualifiedName, g.name) + " " + name))
      && root'.children.Keys == root.children.Keys
      && root'.children[key].GroupChild? && root'.children[key].slot == slot
      && root'.children[key].group.children == g.children[name := s]
      && (forall k :: k in root.children && k != key ==> root'.children[k] == root.children[k])
      && |root'.body.options| == |root.body.options|
      && root'.body.options[slot] == root'.children[key].group.option
      && (forall i :: 0 <= i < |root.body.options| && i != slot ==> root'.body.options[i] == root.body.options[i])
    ensures r.Success? ==>
      var added := GroupAddSub(root.children[key].group, name, description, options, connectors);
      && added.Success?
      && r.value.0.children[key] == GroupChild(added.value.0, root.children[key].slot)
      && r.value.0.body.options[root.children[key].slot] == added.value.0.option
    ensures r.Success? && root.body.options[root.children[key].slot] == root.children[key].group.option ==>
      r.value.0.body.options[root.children[key].slot].options
        == root.children[key].group.option.options + [r.value.1.option]
  {
    var slot := root.children[key].slot;
    var gs :- GroupAddSub(root.children[key].group, name, description, options, connectors);
    var (g', s) := gs;
    Success((root.(children := root.children[key := GroupChild(g', slot)],
                   body := root.body.(options := root.body.options[slot := g'.option])), s))
  }

  // ---------------------------------------------------------------- invariant

  /** A group's own view: names, qualified names, and schema membership. */
  predicate GroupConsistent(g: Group) {
    && g.option.name == g.name
    && g.option.optionType == SUB_COMMAND_GROUP
    && forall k :: k in g.children ==>
      && g.children[k].name == k
      && g.children[k].qualifiedName == Some(StrOr(g.qualifiedName, g.name) + " " + k)
      && g.children[k].option in g.option.options
  }

  /**
   The three views of a root agree: every child is named by its key,
   carries the qualified name `root + " " + key`, and owns a distinct
   schema slot that holds its option; every group is consistent itself.
   */
  predicate Consistent(root: Root) {
    && (forall k :: k in root.children ==>
          && NameOf(root.children[k]) == k
          && QualifiedNameOf(root.children[k]) == Some(root.qualifiedName + " " + k)
          && root.children[k].slot < |root.body.options|
          && root.body.options[root.children[k].slot] == OptionOf(root.children[k])
          && OptionOf(root.children[k]).name == k)
    && (forall k1, k2 :: k1 in root.children && k2 in root.children && k1 != k2 ==>
          root.children[k1].slot != root.children[k2].slot)
    && (forall k :: k in root.children && root.children[k].GroupChild? ==>
          GroupConsistent(root.children[k].group))
  }

  lemma NewRootConsistent(
    name: string, qualifiedName: string, description: Option<string>, options: Option<seq<CommandOption>>,
    defaultPermission: bool, guildIds: Option<seq<int>>, connectors: Option<map<string, string>>, autoSync: bool)
    requires NewRoot(name, qualifiedName, description, options, defaultPermission, guildIds, connectors, autoSync).Success?
    ensures Consistent(NewRoot(name, qualifiedName, description, options, defaultPermission, guildIds, connectors, autoSync).value)
  {
  }

  /** A root the decorator builds starts out consistent: no children, every option its own. */
  lemma SlashCommandDecoratorConsistent(
    isCoroutine: bool, alreadyCommand: bool, callbackQualname: string, name: string, qualifiedName: string,
    description: Option<string>, options: Option<seq<CommandOption>>, defaultPermission: bool,
    guildIds: Option<seq<int>>, connectors: Option<map<string, string>>, autoSync: bool)
    ensures
      var r := SlashCommandDecorator(isCoroutine, alreadyCommand, callbackQualname, name, qualifiedName,
                                     description, options, defaultPermission, guildIds, connectors, autoSync);
      r.Success? ==> Consistent(r.value)
  {
    if isCoroutine && !alreadyCommand && IsValidSlashName(name) {
      NewRootConsistent(name, qualifiedName, description, options, defaultPermission, guildIds, connectors, autoSync);
    }
  }

  /**
   What both root registrations do on success, stated once: the new child
   takes the next schema slot, its option is appended there, and every
   other child keeps its slot in the kept options.
   */
  lemma AddChildKeepsConsistent(root: Root, root': Root, name: string, child: Child)
    requires Consistent(root)
    requires root'.qualifiedName == root.qualifiedName
    requires root'.children == root.children[name := child]
    requires root'.body.options == KeptOptions(root) + [OptionOf(child)]
    requires child.slot == |KeptOptions(root)|
    requires NameOf(child) == name && OptionOf(child).name == name
    requires QualifiedNameOf(child) == Some(root.qualifiedName + " " + name)
    requires child.GroupChild? ==> GroupConsistent(child.group)
    ensures Consistent(root')
  {
    var kept := KeptOptions(root);
    assert forall k :: k in root.children ==> root.children[k].slot < |kept|;
    forall k | k in root'.children
      ensures root'.children[k].slot < |root'.body.options|
      ensures root'.body.options[root'.children[k].slot] == OptionOf(root'.children[k])
    {
      if k != name {
        assert root'.children[k] == root.children[k];
        assert root'.body.options[root.children[k].slot] == kept[root.children[k].slot];
      }
    }
  }

  lemma RegisterSubCommandKeepsConsistent(
    root: Root, name: string, description: Option<string>, options: Option<seq<CommandOption>>,
    connectors: Option<map<string, string>>)
    requires Consistent(root)
    ensures Consistent(RegisterSubCommand(root, name, description, options, connectors).root)
  {
    var reg := RegisterSubCommand(root, name, description, options, connectors);
    if reg.result.Success? {
      AddChildKeepsConsistent(root, reg.root, name, reg.root.children[name]);
    }
  }

  lemma RegisterGroupKeepsConsistent(root: Root, name: string)
    requires Consistent(root)
    ensures Consistent(RegisterGroup(root, name).root)
  {
    var reg := RegisterGroup(root, name);
    if reg.result.Success? {
      AddChildKeepsConsistent(root, reg.root, name, reg.root.children[name]);
    }
  }

  lemma GroupAddSubKeepsConsistent(
    g: Group, name: string, description: Option<string>, options: Option<seq<CommandOption>>,
    connectors: Option<map<string, string>>)
    requires GroupConsistent(g)
    ensures GroupAddSub(g, name, description, options, connectors).Success? ==>
      GroupConsistent(GroupAddSub(g, name, description, options, connectors).value.0)
  {
    var r := GroupAddSub(g, name, description, options, connectors);
    if r.Success? {
      var g' := r.value.0;
      forall k | k in g'.children ensures g'.children[k].option in g'.option.options {
        if k != name {
          assert g'.children[k].option in g.option.options;
        }
      }
    }
  }

  /**
   Replacing the group under `key` by an updated copy that keeps its name,
   qualified name and slot, and writing its option back to that slot.
   */
  lemma ReplaceGroupKeepsConsistent(root: Root, root': Root, key: string, g': Group)
    requires Consistent(root)
    requires key in root.children && root.children[key].GroupChild?
    requires root'.qualifiedName == root.qualifiedName
    requires root'.children == root.children[key := GroupChild(g', root.children[key].slot)]
    requires |root'.body.options| == |root.body.options|
    requires root'.body.options[root.children[key].slot] == g'.option
    requires forall i :: 0 <= i < |root.body.options| && i != root.children[key].slot ==>
      root'.body.options[i] == root.body.options[i]
    requires g'.name == key && g'.option.name == key
    requires g'.qualifiedName == root.children[key].group.qualifiedName
    requires GroupConsistent(g')
    ensures Consistent(root')
  {
    var slot := root.children[key].slot;
    forall k | k in root'.children
      ensures root'.body.options[root'.children[k].slot] == OptionOf(root'.children[k])
    {
      if k != key {
        assert root.children[k].slot != slot;
      }
    }
  }

  lemma RegisterSubUnderGroupKeepsConsistent(
    root: Root, key: string, name: string, description: Option<string>,
    options: Option<seq<CommandOption>>, connectors: Option<map<string, string>>)
    requires Consistent(root)
    requires key in root.children && root.children[key].GroupChild?
    ensures RegisterSubUnderGroup(root, key, name, description, options, connectors).Success? ==>
      Consistent(RegisterSubUnderGroup(root, key, name, description, options, connectors).value.0)
  {
    var r := RegisterSubUnderGroup(root, key, name, description, options, connectors);
    if r.Success? {
      var g := root.children[key].group;
      GroupAddSubKeepsConsistent(g, name, description, options, connectors);
      var g' := GroupAddSub(g, name, description, options, connectors).value.0;
      ReplaceGroupKeepsConsistent(root, r.value.0, key, g');
    }
  }

  /**
   Distinct slots below `n`: at most `n` children. Induction on `n`,
   dropping the child that owns the top slot.
   */
  lemma {:induction false} DistinctSlotsBound(m: map<string, Child>, n: nat)
    requires forall k :: k in m ==> m[k].slot < n
    requires forall k1, k2 :: k1 in m && k2 in m && k1 != k2 ==> m[k1].slot != m[k2].slot
    ensures |m| <= n
    decreases n
  {
    if n == 0 {
      assert m.Keys == {};
    } else if k :| k in m && m[k].slot == n - 1 {
      var m' := m - {k};
      assert m'.Keys == m.Keys - {k};
      assert |m'.Keys| == |m.Keys| - 1;
      DistinctSlotsBound(m', n - 1);
    } else {
      DistinctSlotsBound(m, n - 1);
    }
  }

  /** The schema never has fewer entries than the root has children. */
  lemma ConsistentSchemaCoversChildren(root: Root)
    requires Consistent(root)
    ensures |root.children| <= |root.body.options|
  {
    DistinctSlotsBound(root.children, |root.body.options|);
  }

  // ---------------------------------------------------------------- resolution

  /** What `invoke_children` calls last: normally a sub-command, but a length-1 route may name a group. */
  datatype Leaf = LeafSub(sub: SubCommand) | LeafGroup(group: Group)

  /**
   The `(group, subcmd)` pair of `invoke_children`, or one of the two
   faults the source hits: a route longer than 2 leaves both locals
   unbound, and a length-2 route through a plain sub-command reads its
   missing `children` attribute.
   */
  datatype Lookup = Resolved(group: Option<Group>, leaf: Option<Leaf>) | UnboundRoute | NoChildrenAttribute

  function LeafOf(c: Child): Leaf {
    match c
    case SubChild(s, _) => LeafSub(s)
    case GroupChild(g, _) => LeafGroup(g)
  }

  function Resolve(children: map<string, Child>, chain: seq<string>): (r: Lookup)
    ensures r.UnboundRoute? <==> |chain| > 2
    ensures r.NoChildrenAttribute? <==> |chain| == 2 && chain[0] in children && children[chain[0]].SubChild?
    ensures |chain| == 0 ==> r == Resolved(None, None)
    ensures 1 <= |chain| <= 2 && chain[0] !in children ==> r == Resolved(None, None)
    ensures r.Resolved? && r.group.Some? ==>
      |chain| == 2 && chain[0] in children && children[chain[0]] == GroupChild(r.group.value, children[chain[0]].slot)
    ensures r.Resolved? && r.leaf.Some? && |chain| == 2 ==>
      r.group.Some? && chain[1] in r.group.value.children && r.leaf.value == LeafSub(r.group.value.children[chain[1]])
    ensures r.Resolved? && r.leaf.Some? && |chain| == 1 ==>
      chain[0] in children && r.leaf.value == LeafOf(children[chain[0]])
    ensures |chain| == 1 && chain[0] in children ==> r == Resolved(None, Some(LeafOf(children[chain[0]])))
    ensures |chain| == 2 && chain[0] in children && children[chain[0]].GroupChild? ==>
      var g := children[chain[0]].group;
      r == Resolved(Some(g), if chain[1] in g.children then Some(LeafSub(g.children[chain[1]])) else None)
  {
    if |chain| == 0 then Resolved(None, None)
    else if |chain| == 1 then
      Resolved(None, if chain[0] in children then Some(LeafOf(children[chain[0]])) else None)
    else if |chain| == 2 then
      if chain[0] !in children then Resolved(None, None)
      else match children[chain[0]]
        case SubChild(_, _) => NoChildrenAttribute
        case GroupChild(g, _) =>
          Resolved(Some(g), if chain[1] in g.children then Some(LeafSub(g.children[chain[1]])) else None)
    else UnboundRoute
  }

  /** A sub-command registered under the root is what a one-name route resolves to. */
  lemma RegisteredSubCommandResolves(
    root: Root, name: string, description: Option<string>, options: Option<seq<CommandOption>>,
    connectors: Option<map<string, string>>)
    requires RegisterSubCommand(root, name, description, options, connectors).result.Success?
    ensures
      var reg := RegisterSubCommand(root, name, description, options, connectors);
      Resolve(reg.root.children, [name]) == Resolved(None, Some(LeafSub(reg.result.value)))
  {
  }

  /** A sub-command registered under a group is what the two-name route resolves to. */
  lemma RegisteredGroupSubCommandResolves(
    root: Root, key: string, name: string, description: Option<string>,
    options: Option<seq<CommandOption>>, connectors: Option<map<string, string>>)
    requires key in root.children && root.children[key].GroupChild?
    requires root.children[key].slot < |root.body.options|
    requires RegisterSubUnderGroup(root, key, name, description, options, connectors).Success?
    ensures
      var (root', s) := RegisterSubUnderGroup(root, key, name, description, options, connectors).value;
      Resolve(root'.children, [key, name]) == Resolved(Some(root'.children[key].group), Some(LeafSub(s)))
  {
  }

  /**
   In a consistent tree, the sub-command a two-name route reaches has the
   qualified name `root group sub`.
   */
  lemma ResolvedQualifiedName(root: Root, groupName: string, subName: string, g: Group, s: SubCommand)
    requires Consistent(root)
    requires Resolve(root.children, [groupName, subName]) == Resolved(Some(g), Some(LeafSub(s)))
    ensures s.qualifiedName == Some(root.qualifiedName + " " + groupName + " " + subName)
  {
    assert [groupName, subName][0] == groupName;
    assert root.children[groupName].GroupChild?;
    var q := root.qualifiedName + " " + groupName;
    assert g.qualifiedName == Some(q);
    assert q[|root.qualifiedName|] == ' ';
    assert StrOr(g.qualifiedName, g.name) == q;
  }

  /**
   Re-registering a name replaces the map entry but still appends to the
   schema: after registering `a` twice the root has one child and two
   schema entries.
   */
  lemma ReRegistrationDivergence(root: Root)
    requires |root.children| == 0
    ensures
      var r1 := RegisterSubCommand(root, "a", None, None, None).root;
      var r2 := RegisterSubCommand(r1, "a", None, None, None).root;
      |r2.children| == 1 && |r2.body.options| == 2
  {
    assert IsLower("a") by { assert IsLowerAscii("a"[0]); }
    var r1 := RegisterSubCommand(root, "a", None, None, None).root;
    assert r1.children.Keys == {"a"};
    var r2 := RegisterSubCommand(r1, "a", None, None, None).root;
    assert r2.children.Keys == {"a"};
  }
}

=== FILE: commands.dfy ===
/**
 The application-command values of disnake's app_commands module:
 `SlashCommand` (name rule, `__eq__`, `add_option`, `to_dict`,
 `from_dict`), the user and message context-menu commands, and the
 `application_command_factory` that dispatches a payload on its type tag.
 */
module Commands {
  import opened Wrappers
  import opened Payload
  import opened Names
  import opened Options

  const CHAT_INPUT: int := 1
  const USER: int := 2
  const MESSAGE: int := 3

  /**
   `SlashCommand`. Its type is always chat_input. `id` and
   `application_id` come from the inherited constructor.
   */
  datatype SlashCommand = SlashCommand(
    name: string,
    description: string,
    options: seq<CommandOption>,
    defaultPermission: bool,
    id: Option<int>,
    applicationId: Option<int>)

  /** `UserCommand` or `MessageCommand`, told apart by `commandType`. */
  datatype ContextCommand = ContextCommand(
    commandType: int,
    name: string,
    id: Option<int>,
    applicationId: Option<int>)

  /** What `application_command_factory` can build. */
  datatype AppCommand = Slash(slash: SlashCommand) | ContextMenu(context: ContextCommand)

  /** `SlashCommand.__eq__`: type, name, description and options only. */
  predicate SameSlashCommand(a: SlashCommand, b: SlashCommand) {
    a.name == b.name && a.description == b.description && a.options == b.options
  }

  /** `UserCommand.__eq__` and `MessageCommand.__eq__`: type and name only. */
  predicate SameContextCommand(a: ContextCommand, b: ContextCommand) {
    a.commandType == b.commandType && a.name == b.name
  }

  /** A slash command the constructor can build, with well-formed options. */
  predicate WellFormedSlash(c: SlashCommand) {
    IsValidSlashName(c.name) && forall i :: 0 <= i < |c.options| ==> WellFormedOption(c.options[i])
  }

  /**
   `SlashCommand(name, description, options, default_permission)`. The name
   rule is the one the assertion message describes (see `Names`).
   */
  function NewSlashCommand(
    name: string,
    description: string,
    options: Option<seq<CommandOption>>,
    defaultPermission: bool,
    id: Option<int>,
    applicationId: Option<int>
  ): (r: Result<SlashCommand, Error>)
    ensures r.Success? <==> IsValidSlashName(name)
    ensures r.Success? ==>
      && r.value.name == name
      && r.value.description == description
      && r.value.options == (if options.Some? then options.value else [])
      && r.value.defaultPermission == defaultPermission
      && r.value.id == id && r.value.applicationId == applicationId
  {
    if !IsValidSlashName(name) then
      Failure(AssertionFailed("Slash command name should consist of these symbols: a-z, 0-9, -, _"))
    else
      Success(SlashCommand(name, description, options.GetOr([]), defaultPermission, id, applicationId))
  }

  /** `SlashCommand.add_option(...)`: builds the option and appends it, unchecked. */
  function SlashAddOption(
    c: SlashCommand,
    name: string,
    description: Option<string>,
    optionType: Option<int>,
    required: bool,
    choices: ChoicesArg,
    options: Option<seq<CommandOption>>
  ): (r: Result<SlashCommand, Error>)
    ensures r.Success? <==> IsLower(name)
    ensures r.Success? ==>
      && |r.value.options| == |c.options| + 1
      && r.value.options[..|c.options|] == c.options
      && r.value.options[|c.options|] == NewOption(name, description, optionType, required, choices, options).value
      && r.value.(options := c.options) == c
  {
    var o :- NewOption(name, description, optionType, required, choices, options);
    Success(c.(options := c.options + [o]))
  }

  /**
   `add_option` keeps a slash command well formed when the sub-options it
   is handed are, so the command still round-trips afterwards.
   */
  lemma SlashAddOptionKeepsWellFormed(
    c: SlashCommand, name: string, description: Option<string>, optionType: Option<int>,
    required: bool, choices: ChoicesArg, options: Option<seq<CommandOption>>)
    requires WellFormedSlash(c)
    requires forall i :: 0 <= i < |options.GetOr([])| ==> WellFormedOption(options.GetOr([])[i])
    ensures var r := SlashAddOption(c, name, description, optionType, required, choices, options);
      r.Success? ==> WellFormedSlash(r.value)
  {
    var r := SlashAddOption(c, name, description, optionType, required, choices, options);
    if r.Success? {
      var o := NewOption(name, description, optionType, required, choices, options).value;
      assert WellFormedOption(o);
      forall i | 0 <= i < |r.value.options| ensures WellFormedOption(r.value.options[i]) {
        if i < |c.options| {
          assert r.value.options[i] == r.value.options[..|c.options|][i];
        }
      }
    }
  }

  // ---------------------------------------------------------------------
  // Serialisation

  /** `SlashCommand.to_dict(hide_name=...)`. */
  function SlashToDict(c: SlashCommand, hideName: bool): (r: Value)
    ensures r.Dict?
    ensures |r.entries| == 3 + (if c.defaultPermission then 0 else 1) + (if hideName then 0 else 1)
    ensures r.entries[..3] == [("type", Int(CHAT_INPUT)), ("description", Str(c.description)),
                               ("options", OptionsToList(c.options))]
  {
    Dict(
      [("type", Int(CHAT_INPUT)), ("description", Str(c.description)), ("options", OptionsToList(c.options))]
      + (if !c.defaultPermission then [("default_permission", Bool(false))] else [])
      + (if !hideName then [("name", Str(c.name))] else []))
  }

  /** `to_dict` of a user or message command. */
  function ContextToDict(c: ContextCommand): Value {
    Dict([("type", Int(c.commandType)), ("name", Str(c.name))])
  }

  function AppCommandToDict(c: AppCommand): Value {
    match c
    case Slash(s) => SlashToDict(s, false)
    case ContextMenu(m) => ContextToDict(m)
  }

  /** The value of a string of decimal digits. */
  function DecimalValue(s: string): (n: nat)
    requires forall i :: 0 <= i < |s| ==> '0' <= s[i] <= '9'
  {
    if |s| == 0 then 0 else 10 * DecimalValue(s[..|s| - 1]) + (s[|s| - 1] - '0') as int
  }

  predicate IsDecimal(s: string) {
    |s| > 0 && forall i :: 0 <= i < |s| ==> '0' <= s[i] <= '9'
  }

  /**
   `kwargs.pop(key, None)` followed by `int(...)` when truthy: snowflake ids
   arrive as integers or as strings of digits.
   */
  function IdFromValue(v: Option<Value>, key: string): Result<Option<int>, Error> {
    match v
    case None => Success(None)
    case Some(Null) => Success(None)
    case Some(Int(i)) => Success(Some(i))
    case Some(Str(s)) => if IsDecimal(s) then Success(Some(DecimalValue(s))) else Failure(UnsupportedValue(key))
    case Some(_) => Failure(UnsupportedValue(key))
  }

  function DefaultPermissionFromValue(v: Option<Value>): Result<bool, Error> {
    match v
    case None => Success(true)
    case Some(Bool(b)) => Success(b)
    case Some(_) => Failure(UnsupportedValue("default_permission"))
  }

  /** `SlashCommand(**payload)` once the nested options are parsed; unknown keys are ignored. */
  function BindSlashCommand(d: Entries, options: Option<seq<CommandOption>>): (r: Result<SlashCommand, Error>)
    ensures r.Success? ==> IsValidSlashName(r.value.name) && r.value.options == options.GetOr([])
  {
    match (Get(d, "name"), Get(d, "description"))
    case (None, _) => Failure(MissingArgument("name"))
    case (_, None) => Failure(MissingArgument("description"))
    case (Some(Str(name)), Some(Str(description))) =>
      var defaultPermission :- DefaultPermissionFromValue(Get(d, "default_permission"));
      var id :- IdFromValue(Get(d, "id"), "id");
      var applicationId :- IdFromValue(Get(d, "application_id"), "application_id");
      NewSlashCommand(name, description, options, defaultPermission, id, applicationId)
    case (Some(Str(_)), Some(_)) => Failure(UnsupportedValue("description"))
    case (Some(_), Some(_)) => Failure(UnsupportedValue("name"))
  }

  /**
   `SlashCommand.from_dict`: `None` unless the popped type (default 1) is
   chat_input; otherwise nested options, then the constructor.
   */
  function SlashFromDict(v: Value): (r: Result<Option<SlashCommand>, Error>)
    ensures !v.Dict? ==> r == Failure(NotAMapping)
    ensures v.Dict? && !PyEqualsInt(GetOr(v.entries, "type", Int(CHAT_INPUT)), CHAT_INPUT) ==> r == Success(None)
    ensures r.Success? && r.value.Some? ==> WellFormedSlash(r.value.value)
  {
    match v
    case Dict(d) =>
      if !PyEqualsInt(GetOr(d, "type", Int(CHAT_INPUT)), CHAT_INPUT) then Success(None)
      else
        var options :- (
          match Get(d, "options")
          case None => Success(None)
          case Some(ov) =>
            var os :- OptionsFromList(ov);
            Success(Some(os)));
        var c :- BindSlashCommand(d, options);
        Success(Some(c))
    case _ => Failure(NotAMapping)
  }

  /**
   `UserCommand.from_dict` (`expected` = 2) and `MessageCommand.from_dict`
   (`expected` = 3): `None` unless the popped type (default 0) matches.
   */
  function ContextFromDict(v: Value, expected: int): (r: Result<Option<ContextCommand>, Error>)
    ensures !v.Dict? ==> r == Failure(NotAMapping)
    ensures r.Success? && r.value.Some? ==>
      && PyEqualsInt(GetOr(v.entries, "type", Int(0)), expected)
      && r.value.value.commandType == expected
      && Get(v.entries, "name") == Some(Str(r.value.value.name))
  {
    match v
    case Dict(d) =>
      if !PyEqualsInt(GetOr(d, "type", Int(0)), expected) then Success(None)
      else (
        match Get(d, "name")
        case None => Failure(MissingArgument("name"))
        case Some(Str(name)) =>
          var id :- IdFromValue(Get(d, "id"), "id");
          var applicationId :- IdFromValue(Get(d, "application_id"), "application_id");
          Success(Some(ContextCommand(expected, name, id, applicationId)))
        case Some(_) => Failure(UnsupportedValue("name")))
    case _ => Failure(NotAMapping)
  }

  /** The type tag `application_command_factory` reads, defaulting to chat_input. */
  function CommandTag(d: Entries): Value {
    GetOr(d, "type", Int(CHAT_INPUT))
  }

  /** `application_command_factory`: dispatch on the type tag; `None` for any other tag. */
  function CommandFromDict(v: Value): (r: Result<Option<AppCommand>, Error>)
    ensures !v.Dict? ==> r == Failure(NotAMapping)
    ensures r.Success? && r.value.Some? && r.value.value.Slash? ==> WellFormedSlash(r.value.value.slash)
    ensures r.Success? && r.value.Some? && r.value.value.ContextMenu? ==>
      r.value.value.context.commandType in {USER, MESSAGE}
  {
    match v
    case Dict(d) =>
      var tag := CommandTag(d);
      if PyEqualsInt(tag, CHAT_INPUT) then
        var c :- SlashFromDict(v);
        Success(if c.Some? then Some(Slash(c.value)) else None)
      else if PyEqualsInt(tag, USER) then
        var c :- ContextFromDict(v, USER);
        Success(if c.Some? then Some(ContextMenu(c.value)) else None)
      else if PyEqualsInt(tag, MESSAGE) then
        var c :- ContextFromDict(v, MESSAGE);
        Success(if c.Some? then Some(ContextMenu(c.value)) else None)
      else Success(None)
    case _ => Failure(NotAMapping)
  }

  // ---------------------------------------------------------------------
  // Properties

  lemma GetFromSlashHead(a: Entries, k: string)
    requires |a| == 3 && a[0].0 == "type" && a[1].0 == "description" && a[2].0 == "options"
    ensures k == "type" ==> Get(a, k) == Some(a[0].1)
    ensures k == "description" ==> Get(a, k) == Some(a[1].1)
    ensures k == "options" ==> Get(a, k) == Some(a[2].1)
    ensures k !in {"type", "description", "options"} ==> !HasKey(a, k)
  {
  }

  /** The three keys `to_dict` always writes. */
  lemma SlashToDictHeadKeys(c: SlashCommand, hideName: bool)
    ensures var d := SlashToDict(c, hideName).entries;
      && Get(d, "type") == Some(Int(CHAT_INPUT))
      && Get(d, "description") == Some(Str(c.description))
      && Get(d, "options") == Some(OptionsToList(c.options))
  {
    var a: Entries := [("type", Int(CHAT_INPUT)), ("description", Str(c.description)), ("options", OptionsToList(c.options))];
    var p: Entries := if !c.defaultPermission then [("default_permission", Bool(false))] else [];
    var n: Entries := if !hideName then [("name", Str(c.name))] else [];
    assert SlashToDict(c, hideName).entries == a + p + n + [];
    GetFromSlashHead(a, "type");
    GetConcat4(a, p, n, [], "type");
    GetFromSlashHead(a, "description");
    GetConcat4(a, p, n, [], "description");
    GetFromSlashHead(a, "options");
    GetConcat4(a, p, n, [], "options");
  }

  /** The keys `to_dict` writes only on condition. */
  lemma SlashToDictOptionalKeys(c: SlashCommand, hideName: bool)
    ensures var d := SlashToDict(c, hideName).entries;
      && Get(d, "default_permission") == (if c.defaultPermission then None else Some(Bool(false)))
      && Get(d, "name") == (if hideName then None else Some(Str(c.name)))
  {
    var a: Entries := [("type", Int(CHAT_INPUT)), ("description", Str(c.description)), ("options", OptionsToList(c.options))];
    var p: Entries := if !c.defaultPermission then [("default_permission", Bool(false))] else [];
    var n: Entries := if !hideName then [("name", Str(c.name))] else [];
    assert SlashToDict(c, hideName).entries == a + p + n + [];
    GetFromSlashHead(a, "default_permission");
    GetConcat4(a, p, n, [], "default_permission");
    GetFromSlashHead(a, "name");
    GetConcat4(a, p, n, [], "name");
  }

  /** The ids, which `to_dict` never writes. */
  lemma SlashToDictNoIds(c: SlashCommand, hideName: bool)
    ensures var d := SlashToDict(c, hideName).entries;
      Get(d, "id") == None && Get(d, "application_id") == None
  {
    var a: Entries := [("type", Int(CHAT_INPUT)), ("description", Str(c.description)), ("options", OptionsToList(c.options))];
    var p: Entries := if !c.defaultPermission then [("default_permission", Bool(false))] else [];
    var n: Entries := if !hideName then [("name", Str(c.name))] else [];
    assert SlashToDict(c, hideName).entries == a + p + n + [];
    GetFromSlashHead(a, "id");
    GetConcat4(a, p, n, [], "id");
    GetFromSlashHead(a, "application_id");
    GetConcat4(a, p, n, [], "application_id");
  }

  /**
   Which keys `SlashCommand.to_dict` emits: `type`, `description` and
   `options` always; `default_permission: False` only when the permission
   is false; `name` exactly when the name is not hidden.
   */
  lemma SlashToDictKeys(c: SlashCommand, hideName: bool)
    ensures SlashToDict(c, hideName).Dict?
    ensures var d := SlashToDict(c, hideName).entries;
      && Get(d, "type") == Some(Int(CHAT_INPUT))
      && Get(d, "description") == Some(Str(c.description))
      && Get(d, "options") == Some(OptionsToList(c.options))
      && Get(d, "default_permission") == (if c.defaultPermission then None else Some(Bool(false)))
      && Get(d, "name") == (if hideName then None else Some(Str(c.name)))
      && Get(d, "id") == None && Get(d, "application_id") == None
  {
    SlashToDictHeadKeys(c, hideName);
    SlashToDictOptionalKeys(c, hideName);
    SlashToDictNoIds(c, hideName);
  }

  /**
   `SlashCommand.from_dict(c.to_dict())` rebuilds `c` except for the ids,
   which `to_dict` does not emit; so the two are equal under `__eq__`.
   */
  lemma SlashRoundTrip(c: SlashCommand)
    requires WellFormedSlash(c)
    ensures SlashFromDict(SlashToDict(c, false)).Success?
    ensures SlashFromDict(SlashToDict(c, false)).value == Some(c.(id := None, applicationId := None))
    ensures SameSlashCommand(SlashFromDict(SlashToDict(c, false)).value.value, c)
  {
    SlashToDictKeys(c, false);
    OptionsRoundTrip(c.options);
    BindSlashOfToDict(c);
  }

  lemma BindSlashOfToDict(c: SlashCommand)
    requires IsValidSlashName(c.name)
    ensures BindSlashCommand(SlashToDict(c, false).entries, Some(c.options)).Success?
    ensures BindSlashCommand(SlashToDict(c, false).entries, Some(c.options)).value == c.(id := None, applicationId := None)
  {
    SlashToDictKeys(c, false);
  }

  /** Parsing is exact on a command whose ids are unset, and only then. */
  lemma SlashRoundTripExactIff(c: SlashCommand)
    requires WellFormedSlash(c)
    ensures SlashFromDict(SlashToDict(c, false)) == Success(Some(c)) <==> c.id.None? && c.applicationId.None?
  {
    SlashRoundTrip(c);
  }

  /** With `hide_name=True` the payload cannot be parsed back: `name` is missing. */
  lemma SlashHiddenNameFails(c: SlashCommand)
    requires WellFormedSlash(c)
    ensures SlashFromDict(SlashToDict(c, true)).Failure?
    ensures SlashFromDict(SlashToDict(c, true)).error == MissingArgument("name")
  {
    SlashToDictKeys(c, true);
    OptionsRoundTrip(c.options);
  }

  /** `SlashCommand.from_dict` returns `None` exactly when the type is not chat_input. */
  lemma SlashFromDictNoneIff(d: Entries)
    ensures SlashFromDict(Dict(d)) == Success(None) <==> !PyEqualsInt(GetOr(d, "type", Int(CHAT_INPUT)), CHAT_INPUT)
  {
  }

  /** The user/message parsers return `None` exactly when the popped type (default 0) differs. */
  lemma ContextFromDictNoneIff(d: Entries, expected: int)
    ensures ContextFromDict(Dict(d), expected) == Success(None) <==> !PyEqualsInt(GetOr(d, "type", Int(0)), expected)
  {
  }

  lemma ContextRoundTrip(c: ContextCommand)
    ensures ContextFromDict(ContextToDict(c), c.commandType).Success?
    ensures ContextFromDict(ContextToDict(c), c.commandType).value == Some(c.(id := None, applicationId := None))
  {
    var d := ContextToDict(c).entries;
    GetFirst(d, "type");
    GetConcat(d[..1], d[1..], "name");
    GetConcat(d[..1], d[1..], "id");
    GetConcat(d[..1], d[1..], "application_id");
    assert d[..1] + d[1..] == d;
  }

  /**
   `application_command_factory` dispatches on the tag: a slash command
   only for tag 1, a context-menu command only for tags 2 and 3 carrying
   that tag, and `None` for every other tag.
   */
  lemma FactoryDispatch(d: Entries)
    ensures var r := CommandFromDict(Dict(d)); var tag := CommandTag(d);
      && (!PyEqualsInt(tag, CHAT_INPUT) && !PyEqualsInt(tag, USER) && !PyEqualsInt(tag, MESSAGE) ==> r == Success(None))
      && (r.Success? && r.value.Some? && r.value.value.Slash? ==> PyEqualsInt(tag, CHAT_INPUT))
      && (r.Success? && r.value.Some? && r.value.value.ContextMenu? ==>
            PyEqualsInt(tag, r.value.value.context.commandType) && r.value.value.context.commandType in {USER, MESSAGE})
      && (PyEqualsInt(tag, CHAT_INPUT) ==> r == (match SlashFromDict(Dict(d))
                                                 case Success(c) => Success(if c.Some? then Some(Slash(c.value)) else None)
                                                 case Failure(e) => Failure(e)))
      && (PyEqualsInt(tag, USER) ==> r == (match ContextFromDict(Dict(d), USER)
                                           case Success(c) => Success(if c.Some? then Some(ContextMenu(c.value)) else None)
                                           case Failure(e) => Failure(e)))
      && (PyEqualsInt(tag, MESSAGE) ==> r == (match ContextFromDict(Dict(d), MESSAGE)
                                              case Success(c) => Success(if c.Some? then Some(ContextMenu(c.value)) else None)
                                              case Failure(e) => Failure(e)))
  {
  }

  /** A command serialised with `to_dict` comes back from the factory equal under `__eq__`. */
  lemma FactoryRoundTrip(c: AppCommand)
    requires c.Slash? ==> WellFormedSlash(c.slash)
    requires c.ContextMenu? ==> c.context.commandType in {USER, MESSAGE}
    ensures CommandFromDict(AppCommandToDict(c)).Success?
    ensures CommandFromDict(AppCommandToDict(c)).value.Some?
    ensures match (c, CommandFromDict(AppCommandToDict(c)).value.value)
      case (Slash(a), Slash(b)) => SameSlashCommand(a, b)
      case (ContextMenu(a), ContextMenu(b)) => SameContextCommand(a, b)
      case _ => false
  {
    match c
    case Slash(s) =>
      SlashToDictKeys(s, false);
      SlashRoundTrip(s);
    case ContextMenu(m) =>
      ContextRoundTrip(m);
      GetFirst(ContextToDict(m).entries, "type");
  }
}

=== FILE: invocation.dfy ===
/**
 `InvokableSlashCommand.invoke`, `invoke_children` and
 `_call_external_error_handlers` as pure functions. Every collaborator the
 base class provides (`prepare`, the callbacks, the local error handlers,
 releasing the concurrency slot, the after-invoke hooks, the cog's error
 hook) is an opaque step that either succeeds or raises; the result is the
 completion of `invoke`, whether it set `command_failed`, and the ordered
 trace of the steps it ran.

 Exception classes follow Python 3.8 and later: `asyncio.CancelledError`
 derives from `BaseException`, so `except Exception` does not catch it.
 */
module Invocation {
  import opened Wrappers
  import opened Payload
  import opened Router
  import opened Options
  import opened CommandTree

  datatype Exc =
    | CommandError(tag: string)          // any `CommandError` subclass other than the wrapper below
    | CommandInvokeError(cause: Exc)     // the wrapper; itself a `CommandError`
    | Cancelled                          // `asyncio.CancelledError`
    | OtherException(tag: string)        // any other `Exception`
    | OtherBaseException(tag: string)    // `KeyboardInterrupt`, `SystemExit`, ...

  predicate IsCommandError(e: Exc) {
    e.CommandError? || e.CommandInvokeError?
  }

  /** Caught by `except Exception`. */
  predicate IsException(e: Exc) {
    !e.Cancelled? && !e.OtherBaseException?
  }

  datatype Step = Succeeds | Raises(error: Exc)

  /** The outcome of every opaque step one invocation may run. */
  datatype Collaborators = Collaborators(
    prepare: Step,
    rootBody: Step,
    groupBody: Step,
    groupErrorHandler: Step,
    leafBody: Step,
    leafErrorHandler: Step,
    hasMaxConcurrency: bool,
    release: Step,
    afterHooks: Step)

  datatype Event =
    | Prepare
    | CallRoot(kwargs: Entries)
    | InvokeGroup(name: string)
    | GroupErrorHandler(name: string)
    | InvokeLeaf(name: string, kwargs: Entries)
    | LeafErrorHandler(name: string)
    | Release
    | AfterHooks

  /** How `invoke` ends: a normal return, the swallowed cancellation, or an exception. */
  datatype Completion = Returned | ReturnedCancelled | Raised(error: Exc)

  datatype Invocation = Invocation(completion: Completion, commandFailed: bool, trace: seq<Event>)

  function LeafName(l: Leaf): string {
    match l
    case LeafSub(s) => s.name
    case LeafGroup(g) => g.name
  }

  predicate IsChildEvent(e: Event) {
    e.InvokeGroup? || e.GroupErrorHandler? || e.InvokeLeaf? || e.LeafErrorHandler?
  }

  /**
   `try: await node.invoke(...) / except Exception as exc: await
   node._call_local_error_handler(inter, exc); raise`. The handler runs
   only for an `Exception`; if it raises, its exception replaces the
   original one.
   */
  function Guarded(body: Step, handler: Step, call: Event, onError: Event): (r: (Step, seq<Event>))
    ensures r.0.Succeeds? <==> body.Succeeds?
    ensures body.Raises? && IsException(body.error) ==>
      r.1 == [call, onError] && r.0 == (if handler.Raises? then handler else body)
    ensures !(body.Raises? && IsException(body.error)) ==> r == (body, [call])
  {
    match body
    case Succeeds => (Succeeds, [call])
    case Raises(e) =>
      if IsException(e) then (if handler.Raises? then handler else body, [call, onError])
      else (body, [call])
  }

  /** The guarded call of a resolved group, with its local error handler. */
  function GroupCall(g: Group, c: Collaborators): (Step, seq<Event>) {
    Guarded(c.groupBody, c.groupErrorHandler, InvokeGroup(g.name), GroupErrorHandler(g.name))
  }

  /** The guarded call of a resolved sub-command with the routed kwargs, with its local error handler. */
  function LeafCall(l: Leaf, kwargs: Entries, c: Collaborators): (Step, seq<Event>) {
    Guarded(c.leafBody, c.leafErrorHandler, InvokeLeaf(LeafName(l), kwargs), LeafErrorHandler(LeafName(l)))
  }

  /** `invoke_children`: route, resolve, then the group and the leaf, each guarded. */
  function InvokeChildren(children: map<string, Child>, options: Entries, c: Collaborators): (r: (Step, seq<Event>))
    ensures forall i :: 0 <= i < |r.1| ==> IsChildEvent(r.1[i])
    ensures |r.1| <= 4
    ensures Resolve(children, OptionsAsRoute(options).0).UnboundRoute? ==>
      r == (Raises(OtherException("UnboundLocalError")), [])
    ensures Resolve(children, OptionsAsRoute(options).0).NoChildrenAttribute? ==>
      r == (Raises(OtherException("AttributeError")), [])
    ensures r.0.Succeeds? ==> forall i :: 0 <= i < |r.1| ==> !r.1[i].GroupErrorHandler? && !r.1[i].LeafErrorHandler?
    ensures forall i :: 0 <= i < |r.1| && r.1[i].InvokeLeaf? ==> r.1[i].kwargs == OptionsAsRoute(options).1
    ensures forall i, j :: 0 <= i < j < |r.1| && (r.1[i].InvokeLeaf? || r.1[i].LeafErrorHandler?) ==>
      r.1[j].LeafErrorHandler?
    ensures var res := Resolve(children, OptionsAsRoute(options).0);
      res == Resolved(None, None) ==> r == (Succeeds, [])
    ensures var res := Resolve(children, OptionsAsRoute(options).0);
      res.Resolved? && res.group.None? && res.leaf.Some? ==>
        r == LeafCall(res.leaf.value, OptionsAsRoute(options).1, c)
    ensures var res := Resolve(children, OptionsAsRoute(options).0);
      res.Resolved? && res.group.Some? && c.groupBody.Raises? ==> r == GroupCall(res.group.value, c)
    ensures var res := Resolve(children, OptionsAsRoute(options).0);
      res.Resolved? && res.group.Some? && c.groupBody.Succeeds? ==>
        r == if res.leaf.Some? then
               var (lStep, lTrace) := LeafCall(res.leaf.value, OptionsAsRoute(options).1, c);
               (lStep, [InvokeGroup(res.group.value.name)] + lTrace)
             else (Succeeds, [InvokeGroup(res.group.value.name)])
  {
    var (chain, kwargs) := OptionsAsRoute(options);
    match Resolve(children, chain)
    case UnboundRoute => (Raises(OtherException("UnboundLocalError")), [])
    case NoChildrenAttribute => (Raises(OtherException("AttributeError")), [])
    case Resolved(group, leaf) =>
      var (gStep, gTrace) := if group.Some? then GroupCall(group.value, c) else (Succeeds, []);
      if gStep.Raises? then (gStep, gTrace)
      else if leaf.Some? then
        var (lStep, lTrace) := LeafCall(leaf.value, kwargs, c);
        assert [] + lTrace == lTrace;
        (lStep, gTrace + lTrace)
      else (Succeeds, gTrace)
  }

  /** The body of `invoke`'s `try`. */
  function TryBody(root: Root, options: Entries, c: Collaborators): (r: (Step, seq<Event>))
    ensures |r.1| >= 1 && r.1[0].CallRoot?
    ensures forall i :: 1 <= i < |r.1| ==> IsChildEvent(r.1[i])
    ensures |root.children| == 0 ==> r == (c.rootBody, [CallRoot(options)])
    ensures |root.children| > 0 && c.rootBody.Raises? ==> r == (c.rootBody, [CallRoot([])])
    ensures |root.children| > 0 && c.rootBody.Succeeds? ==>
      && r.0 == InvokeChildren(root.children, options, c).0
      && r.1 == [CallRoot([])] + InvokeChildren(root.children, options, c).1
  {
    if |root.children| > 0 then
      if c.rootBody.Raises? then (c.rootBody, [CallRoot([])])
      else
        var (s, t) := InvokeChildren(root.children, options, c);
        (s, [CallRoot([])] + t)
    else (c.rootBody, [CallRoot(options)])
  }

  /** The three `except` clauses: the pending completion and whether `command_failed` was set. */
  function Except(s: Step): (Completion, bool) {
    match s
    case Succeeds => (Returned, false)
    case Raises(e) =>
      if IsCommandError(e) then (Raised(e), true)
      else if e.Cancelled? then (ReturnedCancelled, true)
      else if IsException(e) then (Raised(CommandInvokeError(e)), true)
      else (Raised(e), false)
  }

  /** The `finally` clause: a step that raises there replaces the pending completion. */
  function Finally(pending: Completion, c: Collaborators): (Completion, seq<Event>) {
    if c.hasMaxConcurrency && c.release.Raises? then (Raised(c.release.error), [Release])
    else
      var released := if c.hasMaxConcurrency then [Release] else [];
      (if c.afterHooks.Raises? then Raised(c.afterHooks.error) else pending, released + [AfterHooks])
  }

  /** `InvokableSlashCommand.invoke`: `prepare` runs before the `try`. */
  function Invoke(root: Root, options: Entries, c: Collaborators): (r: Invocation)
    ensures |r.trace| >= 1 && r.trace[0] == Prepare
    ensures c.prepare.Raises? ==> r == Invocation(Raised(c.prepare.error), false, [Prepare])
    ensures c.prepare.Succeeds? ==>
      && |r.trace| >= 3 && r.trace[1].CallRoot?
      && (r.trace[|r.trace| - 1] == AfterHooks || r.trace[|r.trace| - 1] == Release)
    ensures r.completion == Returned ==> !r.commandFailed
    ensures r.completion.ReturnedCancelled? ==> r.commandFailed
  {
    if c.prepare.Raises? then Invocation(Raised(c.prepare.error), false, [Prepare])
    else
      var (s, t) := TryBody(root, options, c);
      var (pending, failed) := Except(s);
      var (done, fin) := Finally(pending, c);
      Invocation(done, failed, [Prepare] + t + fin)
  }

  // ---------------------------------------------------------------- properties

  function Count(t: seq<Event>, e: Event): nat
    decreases |t|
  {
    if |t| == 0 then 0 else (if t[0] == e then 1 else 0) + Count(t[1..], e)
  }

  lemma {:induction false} CountConcat(a: seq<Event>, b: seq<Event>, e: Event)
    ensures Count(a + b, e) == Count(a, e) + Count(b, e)
    decreases |a|
  {
    if |a| > 0 {
      assert (a + b)[0] == a[0];
      assert (a + b)[1..] == a[1..] + b;
      CountConcat(a[1..], b, e);
    } else {
      assert a + b == b;
    }
  }

  lemma {:induction false} CountAbsent(t: seq<Event>, e: Event)
    requires forall i :: 0 <= i < |t| ==> t[i] != e
    ensures Count(t, e) == 0
    decreases |t|
  {
    if |t| > 0 {
      CountAbsent(t[1..], e);
    }
  }

  /** The finalization steps both succeed. */
  predicate FinalizationSucceeds(c: Collaborators) {
    (!c.hasMaxConcurrency || c.release.Succeeds?) && c.afterHooks.Succeeds?
  }

  /** A failing `prepare` is outside the `try`: nothing else runs, nothing is released. */
  lemma PrepareFailureSkipsFinalization(root: Root, options: Entries, c: Collaborators)
    requires c.prepare.Raises?
    ensures Invoke(root, options, c).completion == Raised(c.prepare.error)
    ensures !Invoke(root, options, c).commandFailed
    ensures Count(Invoke(root, options, c).trace, Release) == 0
    ensures Count(Invoke(root, options, c).trace, AfterHooks) == 0
    ensures |Invoke(root, options, c).trace| == 1
  {
  }

  /**
   The `finally` steps appended to a trace that holds neither: the release
   once when a slot is set, the after-hooks once unless the release raised.
   */
  lemma FinallyCounts(prefix: seq<Event>, pending: Completion, c: Collaborators)
    requires forall i :: 0 <= i < |prefix| ==> prefix[i] != Release && prefix[i] != AfterHooks
    ensures var t := prefix + Finally(pending, c).1;
      && Count(t, Release) == (if c.hasMaxConcurrency then 1 else 0)
      && Count(t, AfterHooks) == (if c.hasMaxConcurrency && c.release.Raises? then 0 else 1)
      && (!(c.hasMaxConcurrency && c.release.Raises?) ==> t[|t| - 1] == AfterHooks)
      && (c.hasMaxConcurrency ==> t[|t| - 1 - (if c.release.Raises? then 0 else 1)] == Release)
  {
    var fin := Finally(pending, c).1;
    assert Count([AfterHooks], Release) == 0 && Count([AfterHooks], AfterHooks) == 1;
    assert Count([Release], Release) == 1 && Count([Release], AfterHooks) == 0;
    assert Count([Release, AfterHooks], Release) == 1 && Count([Release, AfterHooks], AfterHooks) == 1 by {
      assert [Release, AfterHooks][1..] == [AfterHooks];
    }
    CountAbsent(prefix, Release);
    CountConcat(prefix, fin, Release);
    CountAbsent(prefix, AfterHooks);
    CountConcat(prefix, fin, AfterHooks);
  }

  /** After a successful `prepare`, the trace is the `try` body's calls followed by the `finally` steps. */
  lemma InvokeTraceShape(root: Root, options: Entries, c: Collaborators) returns (prefix: seq<Event>)
    requires c.prepare.Succeeds?
    ensures forall i :: 0 <= i < |prefix| ==> prefix[i] != Release && prefix[i] != AfterHooks
    ensures Invoke(root, options, c).trace == prefix + Finally(Except(TryBody(root, options, c).0).0, c).1
  {
    var (s, t) := TryBody(root, options, c);
    prefix := [Prepare] + t;
    assert forall i :: 1 <= i < |prefix| ==> prefix[i] == t[i - 1];
  }

  /**
   Once `prepare` succeeds, the slot is released exactly once when there
   is one, and the after-hooks run exactly once unless the release itself
   raised; both come after every call, release first.
   */
  lemma FinalizationRunsOnce(root: Root, options: Entries, c: Collaborators)
    requires c.prepare.Succeeds?
    ensures Count(Invoke(root, options, c).trace, Release) == (if c.hasMaxConcurrency then 1 else 0)
    ensures Count(Invoke(root, options, c).trace, AfterHooks)
      == (if c.hasMaxConcurrency && c.release.Raises? then 0 else 1)
    ensures var t := Invoke(root, options, c).trace;
      !(c.hasMaxConcurrency && c.release.Raises?) ==> t[|t| - 1] == AfterHooks
    ensures var t := Invoke(root, options, c).trace;
      c.hasMaxConcurrency ==> t[|t| - 1 - (if c.release.Raises? then 0 else 1)] == Release
  {
    var prefix := InvokeTraceShape(root, options, c);
    FinallyCounts(prefix, Except(TryBody(root, options, c).0).0, c);
  }

  /**
   The outcome taxonomy of the `try` body's step `s` when finalization
   succeeds: success returns; a `CommandError` is re-raised unchanged; a
   cancellation returns; any other `Exception` is wrapped in
   `CommandInvokeError`; every other `BaseException` passes through.
   `command_failed` is set exactly by the three caught cases.
   */
  lemma OutcomeTaxonomy(root: Root, options: Entries, c: Collaborators)
    requires c.prepare.Succeeds? && FinalizationSucceeds(c)
    ensures var s := TryBody(root, options, c).0; var r := Invoke(root, options, c);
      && (s.Succeeds? ==> r.completion == Returned)
      && (s.Raises? && IsCommandError(s.error) ==> r.completion == Raised(s.error))
      && (s == Raises(Cancelled) ==> r.completion == ReturnedCancelled)
      && (s.Raises? && IsException(s.error) && !IsCommandError(s.error) ==>
            r.completion == Raised(CommandInvokeError(s.error)))
      && (s.Raises? && s.error.OtherBaseException? ==> r.completion == Raised(s.error))
      && (r.commandFailed <==> s.Raises? && !s.error.OtherBaseException?)
  {
  }

  /**
   With finalization succeeding, whatever escapes `invoke` is a
   `CommandError` or a non-`Exception` base exception, never a bare
   `Exception` and never a cancellation.
   */
  lemma OnlyCommandErrorsEscape(root: Root, options: Entries, c: Collaborators)
    requires c.prepare.Succeeds? && FinalizationSucceeds(c)
    ensures var r := Invoke(root, options, c);
      r.completion.Raised? ==> IsCommandError(r.completion.error) || r.completion.error.OtherBaseException?
  {
  }

  /** A step in `finally` that raises replaces whatever the `try` produced. */
  lemma FinalizationFailureWins(root: Root, options: Entries, c: Collaborators)
    requires c.prepare.Succeeds?
    ensures c.hasMaxConcurrency && c.release.Raises? ==>
      Invoke(root, options, c).completion == Raised(c.release.error)
    ensures (!c.hasMaxConcurrency || c.release.Succeeds?) && c.afterHooks.Raises? ==>
      Invoke(root, options, c).completion == Raised(c.afterHooks.error)
  {
  }

  /** Without children the root callback alone runs, with the top-level options. */
  lemma FlatCommandGetsOptions(root: Root, options: Entries, c: Collaborators)
    requires |root.children| == 0 && c.prepare.Succeeds?
    ensures var t := Invoke(root, options, c).trace;
      |t| >= 2 && t[1] == CallRoot(options) && forall i :: 0 <= i < |t| ==> !IsChildEvent(t[i])
    ensures TryBody(root, options, c).0 == c.rootBody
    ensures Invoke(root, options, c).commandFailed == Except(c.rootBody).1
    ensures FinalizationSucceeds(c) ==> Invoke(root, options, c).completion == Except(c.rootBody).0
  {
  }

  /** A failing root callback skips the whole tree walk. */
  lemma RootFailureSkipsChildren(root: Root, options: Entries, c: Collaborators)
    requires |root.children| > 0 && c.prepare.Succeeds? && c.rootBody.Raises?
    ensures var t := Invoke(root, options, c).trace;
      |t| >= 2 && t[1] == CallRoot([]) && forall i :: 0 <= i < |t| ==> !IsChildEvent(t[i])
    ensures TryBody(root, options, c).0 == c.rootBody
    ensures Invoke(root, options, c).commandFailed == Except(c.rootBody).1
    ensures FinalizationSucceeds(c) ==> Invoke(root, options, c).completion == Except(c.rootBody).0
  {
  }

  /**
   With children, the root callback runs first without arguments, then
   the resolved group, then the leaf with the routed kwargs.
   */
  lemma ChildrenCallOrder(root: Root, options: Entries, c: Collaborators, g: Group, l: Leaf)
    requires |root.children| > 0 && c.prepare.Succeeds? && c.rootBody.Succeeds? && c.groupBody.Succeeds?
    requires Resolve(root.children, OptionsAsRoute(options).0) == Resolved(Some(g), Some(l))
    ensures var t := Invoke(root, options, c).trace;
      && |t| >= 4
      && t[..4] == [Prepare, CallRoot([]), InvokeGroup(g.name), InvokeLeaf(LeafName(l), OptionsAsRoute(options).1)]
    ensures TryBody(root, options, c).0 == LeafCall(l, OptionsAsRoute(options).1, c).0
    ensures Invoke(root, options, c).commandFailed == Except(LeafCall(l, OptionsAsRoute(options).1, c).0).1
    ensures FinalizationSucceeds(c) ==>
      Invoke(root, options, c).completion == Except(LeafCall(l, OptionsAsRoute(options).1, c).0).0
  {
  }

  /**
   A one-name route to a child of the root: the root callback runs first
   without arguments, then that child with the routed kwargs. If the child
   raises an `Exception`, its local error handler runs next, and the `try`
   body raises the handler's error if it raised, the child's otherwise.
   */
  lemma SubCommandCallOrder(root: Root, options: Entries, c: Collaborators, l: Leaf)
    requires |root.children| > 0 && c.prepare.Succeeds? && c.rootBody.Succeeds?
    requires Resolve(root.children, OptionsAsRoute(options).0) == Resolved(None, Some(l))
    ensures var t := Invoke(root, options, c).trace;
      && |t| >= 3
      && t[..3] == [Prepare, CallRoot([]), InvokeLeaf(LeafName(l), OptionsAsRoute(options).1)]
    ensures var t := Invoke(root, options, c).trace;
      c.leafBody.Raises? && IsException(c.leafBody.error) ==> |t| >= 4 && t[3] == LeafErrorHandler(LeafName(l))
    ensures TryBody(root, options, c).0
      == if c.leafBody.Raises? && IsException(c.leafBody.error) && c.leafErrorHandler.Raises?
         then c.leafErrorHandler else c.leafBody
    ensures Invoke(root, options, c).commandFailed == Except(LeafCall(l, OptionsAsRoute(options).1, c).0).1
    ensures FinalizationSucceeds(c) ==>
      Invoke(root, options, c).completion == Except(LeafCall(l, OptionsAsRoute(options).1, c).0).0
  {
  }

  /**
   End to end: a sub-command registered directly on the root is the one
   invoked, with the leaf arguments, when the interaction's options nest
   those arguments under its name.
   */
  lemma RegisteredSubCommandIsInvoked(
    root: Root, name: string, description: Option<string>, options: Option<seq<CommandOption>>,
    connectors: Option<map<string, string>>, kwargs: Entries, c: Collaborators)
    requires RegisterSubCommand(root, name, description, options, connectors).result.Success?
    requires IsLeafMapping(kwargs) && c.prepare.Succeeds? && c.rootBody.Succeeds?
    ensures var t := Invoke(RegisterSubCommand(root, name, description, options, connectors).root, Nest([name], kwargs), c).trace;
      |t| >= 3 && t[..3] == [Prepare, CallRoot([]), InvokeLeaf(name, kwargs)]
  {
    var reg := RegisterSubCommand(root, name, description, options, connectors);
    NestRoundTrip([name], kwargs);
    RegisteredSubCommandResolves(root, name, description, options, connectors);
    assert name in reg.root.children;
    SubCommandCallOrder(reg.root, Nest([name], kwargs), c, LeafSub(reg.result.value));
  }

  /**
   A group that raises an `Exception` gets its local error handler, and
   the leaf is never invoked; the group's error (or the handler's) is
   what the `try` body raises.
   */
  lemma GroupFailureSkipsLeaf(root: Root, options: Entries, c: Collaborators, g: Group, l: Option<Leaf>)
    requires |root.children| > 0 && c.prepare.Succeeds? && c.rootBody.Succeeds? && c.groupBody.Raises?
    requires Resolve(root.children, OptionsAsRoute(options).0) == Resolved(Some(g), l)
    ensures var t := Invoke(root, options, c).trace;
      forall i :: 0 <= i < |t| ==> !t[i].InvokeLeaf? && !t[i].LeafErrorHandler?
    ensures IsException(c.groupBody.error) <==> GroupErrorHandler(g.name) in Invoke(root, options, c).trace
    ensures TryBody(root, options, c).0
      == if IsException(c.groupBody.error) && c.groupErrorHandler.Raises? then c.groupErrorHandler else c.groupBody
  {
  }

  /**
   A cancelled group skips its local handler (it is not an `Exception`)
   and the leaf, and `invoke` swallows the cancellation.
   */
  lemma CancelledGroupIsSwallowed(root: Root, options: Entries, c: Collaborators, g: Group, l: Option<Leaf>)
    requires |root.children| > 0 && c.prepare.Succeeds? && c.rootBody.Succeeds? && c.groupBody == Raises(Cancelled)
    requires FinalizationSucceeds(c)
    requires Resolve(root.children, OptionsAsRoute(options).0) == Resolved(Some(g), l)
    ensures Invoke(root, options, c).completion == ReturnedCancelled
    ensures Invoke(root, options, c).commandFailed
    ensures Invoke(root, options, c).trace[2..] == [InvokeGroup(g.name)] + Finally(ReturnedCancelled, c).1
  {
  }

  /**
   The lookup faults of routes the tree cannot hold surface as a
   `CommandInvokeError` after the root callback, with no child invoked.
   */
  lemma LookupFaultIsInvokeError(root: Root, options: Entries, c: Collaborators)
    requires |root.children| > 0 && c.prepare.Succeeds? && c.rootBody.Succeeds? && FinalizationSucceeds(c)
    requires !Resolve(root.children, OptionsAsRoute(options).0).Resolved?
    ensures Invoke(root, options, c).completion.Raised?
    ensures Invoke(root, options, c).completion.error.CommandInvokeError?
    ensures Invoke(root, options, c).completion.error.cause.OtherException?
    ensures Invoke(root, options, c).commandFailed
    ensures var t := Invoke(root, options, c).trace; forall i :: 0 <= i < |t| ==> !IsChildEvent(t[i])
  {
  }

  // ---------------------------------------------------------------- external error handlers

  datatype Cog = NoCog | CogWithoutOverride | CogWithOverride(hook: Step)

  datatype HandlerEvent = CogHook(error: Exc) | Dispatch(eventName: string, error: Exc)

  /**
   `_call_external_error_handlers`: the cog's overridden
   `cog_slash_command_error` if any, then, in `finally`, the
   `slash_command_error` event. Dispatching only schedules listeners, so
   it does not raise here.
   */
  function ExternalErrorHandlers(cog: Cog, error: Exc): (r: (Step, seq<HandlerEvent>))
    ensures |r.1| >= 1 && r.1[|r.1| - 1] == Dispatch("slash_command_error", error)
    ensures forall i :: 0 <= i < |r.1| - 1 ==> r.1[i] == CogHook(error)
    ensures cog.CogWithOverride? <==> |r.1| == 2
    ensures r.0.Raises? <==> cog.CogWithOverride? && cog.hook.Raises?
    ensures r.0.Raises? ==> r.0 == cog.hook
  {
    match cog
    case CogWithOverride(hook) => (hook, [CogHook(error), Dispatch("slash_command_error", error)])
    case _ => (Succeeds, [Dispatch("slash_command_error", error)])
  }

  // ---------------------------------------------------------------- an end-to-end scenario

  /** The root `ban` and its group `temp`, before `add` is registered. */
  lemma BanTempGroup()
    ensures NewRoot("ban", "ban", None, None, true, None, None, true).Success?
    ensures var reg := RegisterGroup(NewRoot("ban", "ban", None, None, true, None, None, true).value, "temp");
      && reg.result.Success?
      && reg.result.value.name == "temp"
      && reg.result.value.qualifiedName == Some("ban temp")
      && reg.root.children == map["temp" := GroupChild(reg.result.value, 0)]
      && |reg.root.body.options| == 1
  {
    assert Names.IsValidSlashName("ban") by {
      assert Names.IsLowerAscii("ban"[0]);
    }
    assert Names.IsLower("temp") by { assert Names.IsLowerAscii("temp"[0]); }
    assert "ban" + " " + "temp" == "ban temp";
  }

  /** `ban` with group `temp` holding `add`, built by the three decorators. */
  lemma BanTempAddTree()
    ensures
      var root0 := NewRoot("ban", "ban", None, None, true, None, None, true);
      && root0.Success?
      && var reg := RegisterGroup(root0.value, "temp");
      && reg.result.Success?
      && "temp" in reg.root.children && reg.root.children["temp"].GroupChild?
      && reg.root.children["temp"].slot < |reg.root.body.options|
      && var sub := RegisterSubUnderGroup(reg.root, "temp", "add", None, None, None);
      && sub.Success?
      && sub.value.1.qualifiedName == Some("ban temp add")
      && "temp" in sub.value.0.children && sub.value.0.children["temp"].GroupChild?
      && sub.value.0.children["temp"].group.name == "temp"
      && sub.value.0.children["temp"].group.children == map["add" := sub.value.1]
      && sub.value.1.name == "add"
  {
    BanTempGroup();
    assert Names.IsLower("add") by { assert Names.IsLowerAscii("add"[0]); }
    var reg := RegisterGroup(NewRoot("ban", "ban", None, None, true, None, None, true).value, "temp");
    var g := reg.result.value;
    assert StrOr(g.qualifiedName, g.name) + " " + "add" == "ban temp add";
  }

  /**
   `/ban temp add user:1` on that tree: the nested options resolve to the
   group and the sub-command, which run in order, the leaf with the
   routed arguments, and the invocation returns.
   */
  lemma BanTempAddRun(root: Root, s: SubCommand, c: Collaborators)
    requires "temp" in root.children && root.children["temp"].GroupChild?
    requires root.children["temp"].group.name == "temp"
    requires root.children["temp"].group.children == map["add" := s] && s.name == "add"
    requires c.prepare.Succeeds? && c.rootBody.Succeeds? && c.groupBody.Succeeds? && c.leafBody.Succeeds?
    requires !c.hasMaxConcurrency && c.afterHooks.Succeeds?
    ensures Invoke(root, [("temp", Dict([("add", Dict([("user", Int(1))]))]))], c)
      == Invocation(Returned, false,
                    [Prepare, CallRoot([]), InvokeGroup("temp"), InvokeLeaf("add", [("user", Int(1))]), AfterHooks])
  {
    var options := [("temp", Dict([("add", Dict([("user", Int(1))]))]))];
    RouteDepths([("user", Int(1))], "add", "temp");
    assert OptionsAsRoute(options) == (["temp", "add"], [("user", Int(1))]);
    var g := root.children["temp"].group;
    assert Resolve(root.children, ["temp", "add"]) == Resolved(Some(g), Some(LeafSub(s)));
  }
}

=== FILE: names.dfy ===
/**
 The name rules the application-command constructors assert, restricted to
 ASCII: Python's `str.islower()` and the slash-command name pattern
 `^[\w-]{1,32}$` matched with `re.match`.
 */
module Names {

  predicate IsUpperAscii(c: char) {
    'A' <= c <= 'Z'
  }

  predicate IsLowerAscii(c: char) {
    'a' <= c <= 'z'
  }

  /** `s.islower()`: at least one cased character and no upper-case one. */
  predicate IsLower(s: string) {
    && (exists i :: 0 <= i < |s| && IsLowerAscii(s[i]))
    && (forall i :: 0 <= i < |s| ==> !IsUpperAscii(s[i]))
  }

  /** One character of the class `[\w-]`. */
  predicate IsWordChar(c: char) {
    IsLowerAscii(c) || IsUpperAscii(c) || '0' <= c <= '9' || c == '_' || c == '-'
  }

  /** A whole string matching `[\w-]{1,32}`. */
  predicate IsWordRun(s: string) {
    1 <= |s| <= 32 && forall i :: 0 <= i < |s| ==> IsWordChar(s[i])
  }

  /**
   `re.match(r"^[\w-]{1,32}$", s) is not None`, as the pattern is written:
   Python's `$` also matches just before a newline that ends the string.
   */
  predicate MatchesSlashPatternAsWritten(s: string) {
    IsWordRun(s) || (|s| >= 1 && s[|s| - 1] == '\n' && IsWordRun(s[..|s| - 1]))
  }

  /** The constructor's assertion exactly as the source states it. */
  predicate SlashNameAcceptedAsWritten(s: string) {
    MatchesSlashPatternAsWritten(s) && IsLower(s)
  }

  /** The rule the assertion's message describes: only the listed symbols. */
  predicate IsValidSlashName(s: string) {
    IsWordRun(s) && IsLower(s)
  }

  /** The symbols the assertion message lists: a-z, 0-9, `-` and `_`. */
  predicate IsListedSlashSymbol(c: char) {
    IsLowerAscii(c) || '0' <= c <= '9' || c == '-' || c == '_'
  }

  /**
   A valid slash-command name is 1 to 32 listed symbols with at least one
   letter (a name of digits alone fails `islower()`).
   */
  lemma ValidSlashNameIff(s: string)
    ensures IsValidSlashName(s) <==>
      && 1 <= |s| <= 32
      && (forall i :: 0 <= i < |s| ==> IsListedSlashSymbol(s[i]))
      && (exists i :: 0 <= i < |s| && IsLowerAscii(s[i]))
  {
  }

  lemma IsLowerOfPrefix(s: string)
    requires |s| >= 1 && s[|s| - 1] == '\n'
    ensures IsLower(s) <==> IsLower(s[..|s| - 1])
  {
    var p := s[..|s| - 1];
    if IsLower(p) {
      var i :| 0 <= i < |p| && IsLowerAscii(p[i]);
      assert s[i] == p[i];
    }
    if IsLower(s) {
      var i :| 0 <= i < |s| && IsLowerAscii(s[i]);
      assert i < |p| && p[i] == s[i];
    }
  }

  /**
   The assertion as written accepts exactly the valid names and the valid
   names followed by one newline.
   */
  lemma AsWrittenAcceptsTrailingNewline(s: string)
    ensures SlashNameAcceptedAsWritten(s) <==>
      || IsValidSlashName(s)
      || (|s| >= 2 && s[|s| - 1] == '\n' && IsValidSlashName(s[..|s| - 1]))
  {
    if |s| >= 1 && s[|s| - 1] == '\n' {
      IsLowerOfPrefix(s);
      assert !IsWordChar(s[|s| - 1]);
    }
  }

  /** "ban\n" passes the assertion as written but is not a valid name. */
  lemma TrailingNewlineCounterexample()
    ensures SlashNameAcceptedAsWritten("ban\n")
    ensures !IsValidSlashName("ban\n")
  {
    var s := "ban\n";
    assert s[..|s| - 1] == "ban";
    assert IsLowerAscii("ban"[0]);
    assert IsLowerAscii(s[0]);
    assert !IsWordChar(s[3]);
  }
}

=== FILE: options.dfy ===
/**
 The `Option` and `OptionChoice` schema values of disnake's app_commands
 module: construction (name rule, defaults, choice normalisation), the two
 mutators `add_choice` and `add_option`, and the `to_dict`/`from_dict` pair.
 Option types are the integer tags of `OptionType`.
 */
module Options {
  import opened Wrappers
  import opened Payload
  import opened Names

  const SUB_COMMAND: int := 1
  const SUB_COMMAND_GROUP: int := 2
  const STRING: int := 3

  /** A choice value is a `str` or an `int`. */
  datatype ChoiceValue = StrValue(s: string) | IntValue(i: int)

  datatype OptionChoice = OptionChoice(name: string, value: ChoiceValue)

  /** The shapes the `choices` argument of the constructor accepts. */
  datatype ChoicesArg =
    | NoChoices                                       // `None`
    | ChoiceDict(entries: seq<(string, ChoiceValue)>) // a dict, in iteration order
    | ChoicePairs(pairs: seq<(string, ChoiceValue)>)  // a list of pairs, or a non-empty tuple of pairs
    | ChoiceObjects(choices: seq<OptionChoice>)       // anything else: a list of `OptionChoice`

  /**
   The `Option` class. Its `__eq__` compares exactly these six fields, so
   Dafny's `==` on this datatype is that `__eq__`.
   */
  datatype CommandOption = CommandOption(
    name: string,
    description: Option<string>,
    optionType: int,
    required: bool,
    choices: seq<OptionChoice>,
    options: seq<CommandOption>)

  /** Every name in the tree is lower-case: what the constructor guarantees. */
  predicate WellFormedOption(o: CommandOption) {
    && IsLower(o.name)
    && forall i :: 0 <= i < |o.options| ==> WellFormedOption(o.options[i])
  }

  function PairsToChoices(ps: seq<(string, ChoiceValue)>): seq<OptionChoice> {
    seq(|ps|, i requires 0 <= i < |ps| => OptionChoice(ps[i].0, ps[i].1))
  }

  function ChoicesToPairs(cs: seq<OptionChoice>): seq<(string, ChoiceValue)> {
    seq(|cs|, i requires 0 <= i < |cs| => (cs[i].name, cs[i].value))
  }

  /** The constructor's normalisation of its `choices` argument. */
  function NormaliseChoices(c: ChoicesArg): (r: seq<OptionChoice>)
    ensures c.NoChoices? ==> r == []
    ensures c.ChoiceDict? ==>
      && |r| == |c.entries|
      && forall i :: 0 <= i < |r| ==> r[i].name == c.entries[i].0 && r[i].value == c.entries[i].1
    ensures c.ChoicePairs? ==>
      && |r| == |c.pairs|
      && forall i :: 0 <= i < |r| ==> r[i].name == c.pairs[i].0 && r[i].value == c.pairs[i].1
    ensures c.ChoiceObjects? ==> r == c.choices
  {
    match c
    case NoChoices => []
    case ChoiceDict(es) => PairsToChoices(es)
    case ChoicePairs(ps) => if |ps| > 0 then PairsToChoices(ps) else []
    case ChoiceObjects(cs) => cs
  }

  /**
   Handing back the normalised choices as pairs, as a dict or as objects
   rebuilds the same list: normalisation loses nothing.
   */
  lemma NormaliseChoicesRoundTrip(cs: seq<OptionChoice>)
    ensures NormaliseChoices(ChoicePairs(ChoicesToPairs(cs))) == cs
    ensures NormaliseChoices(ChoiceDict(ChoicesToPairs(cs))) == cs
    ensures NormaliseChoices(ChoiceObjects(cs)) == cs
  {
  }

  /** `Option(name, description, type, required, choices, options)`. */
  function NewOption(
    name: string,
    description: Option<string>,
    optionType: Option<int>,
    required: bool,
    choices: ChoicesArg,
    options: Option<seq<CommandOption>>
  ): (r: Result<CommandOption, Error>)
    ensures r.Success? <==> IsLower(name)
    ensures r.Success? ==>
      && r.value.name == name
      && r.value.description == description
      && r.value.optionType == (if optionType.Some? then optionType.value else STRING)
      && r.value.required == required
      && r.value.choices == NormaliseChoices(choices)
      && r.value.options == (if options.Some? then options.value else [])
  {
    if !IsLower(name) then
      Failure(AssertionFailed("Option name must be lowercase"))
    else
      Success(CommandOption(name, description, optionType.GetOr(STRING), required,
                            NormaliseChoices(choices), options.GetOr([])))
  }

  /** `option.add_choice(name, value)`. */
  function AddChoice(o: CommandOption, name: string, value: ChoiceValue): (r: CommandOption)
    ensures |r.choices| == |o.choices| + 1
    ensures r.choices[..|o.choices|] == o.choices
    ensures r.choices[|o.choices|] == OptionChoice(name, value)
    ensures r.(choices := o.choices) == o
  {
    o.(choices := o.choices + [OptionChoice(name, value)])
  }

  /** Whether `add_option` refuses a child of type `childType` on `parent`. */
  predicate NestingRejects(parent: CommandOption, childType: Option<int>) {
    || (parent.optionType == SUB_COMMAND && (childType.None? || childType.value < 3))
    || (parent.optionType == SUB_COMMAND_GROUP && childType != Some(SUB_COMMAND))
  }

  /**
   The nesting discipline `add_option` keeps on the direct children: a
   sub-command holds no sub-command or group, a group holds only
   sub-commands.
   */
  predicate NestingHolds(o: CommandOption) {
    && (o.optionType == SUB_COMMAND ==>
          forall i :: 0 <= i < |o.options| ==> o.options[i].optionType >= 3)
    && (o.optionType == SUB_COMMAND_GROUP ==>
          forall i :: 0 <= i < |o.options| ==> o.options[i].optionType == SUB_COMMAND)
  }

  /** `option.add_option(...)`: the nesting check, then one append. */
  function AddOption(
    parent: CommandOption,
    name: string,
    description: Option<string>,
    optionType: Option<int>,
    required: bool,
    choices: ChoicesArg,
    options: Option<seq<CommandOption>>
  ): (r: Result<CommandOption, Error>)
    ensures r.Failure? <==> NestingRejects(parent, optionType) || !IsLower(name)
    ensures parent.optionType == SUB_COMMAND && optionType.None? ==> r == Failure(TypeMismatch("'<' not supported between NoneType and int"))
    ensures r.Success? ==>
      && |r.value.options| == |parent.options| + 1
      && r.value.options[..|parent.options|] == parent.options
      && r.value.options[|parent.options|].name == name
      && r.value.options[|parent.options|].optionType == optionType.GetOr(STRING)
      && r.value.options[|parent.options|] == NewOption(name, description, optionType, required, choices, options).value
      && r.value.(options := parent.options) == parent
  {
    if parent.optionType == SUB_COMMAND && optionType.None? then
      Failure(TypeMismatch("'<' not supported between NoneType and int"))
    else if parent.optionType == SUB_COMMAND && optionType.value < 3 then
      Failure(ValueRejected("sub_command can only be nested in a sub_command_group"))
    else if parent.optionType == SUB_COMMAND_GROUP && optionType != Some(SUB_COMMAND) then
      Failure(ValueRejected("Expected sub_command in this sub_command_group"))
    else
      var child :- NewOption(name, description, optionType, required, choices, options);
      Success(parent.(options := parent.options + [child]))
  }

  /** `add_option` never breaks the nesting discipline of its parent. */
  lemma AddOptionKeepsNesting(
    parent: CommandOption,
    name: string,
    description: Option<string>,
    optionType: Option<int>,
    required: bool,
    choices: ChoicesArg,
    options: Option<seq<CommandOption>>)
    requires NestingHolds(parent)
    ensures var r := AddOption(parent, name, description, optionType, required, choices, options);
      r.Success? ==> NestingHolds(r.value)
  {
    var r := AddOption(parent, name, description, optionType, required, choices, options);
    if r.Success? {
      var n := |parent.options|;
      forall i | 0 <= i < |r.value.options|
        ensures r.value.options[i] == if i < n then parent.options[i] else r.value.options[n]
      {
        if i < n {
          assert r.value.options[i] == r.value.options[..n][i];
        }
      }
    }
  }

  // ---------------------------------------------------------------------
  // Serialisation

  function ChoiceValueToValue(v: ChoiceValue): Value {
    match v
    case StrValue(s) => Str(s)
    case IntValue(i) => Int(i)
  }

  /** `OptionChoice.to_dict`. */
  function ChoiceToDict(c: OptionChoice): Value {
    Dict([("name", Str(c.name)), ("value", ChoiceValueToValue(c.value))])
  }

  function DescriptionToValue(d: Option<string>): Value {
    match d
    case None => Null
    case Some(s) => Str(s)
  }

  function ChoicesToList(cs: seq<OptionChoice>): Value {
    List(seq(|cs|, i requires 0 <= i < |cs| => ChoiceToDict(cs[i])))
  }

  /** `Option.to_dict`: three keys always, the other three only when set. */
  function OptionToDict(o: CommandOption): (r: Value)
    ensures r.Dict?
    ensures |r.entries| == 3 + (if o.required then 1 else 0) + (if |o.choices| > 0 then 1 else 0)
                             + (if |o.options| > 0 then 1 else 0)
    ensures r.entries[..3] == [("name", Str(o.name)), ("description", DescriptionToValue(o.description)),
                               ("type", Int(o.optionType))]
    decreases o, 1
  {
    Dict(
      [("name", Str(o.name)), ("description", DescriptionToValue(o.description)), ("type", Int(o.optionType))]
      + (if o.required then [("required", Bool(true))] else [])
      + (if |o.choices| > 0 then [("choices", ChoicesToList(o.choices))] else [])
      + (if |o.options| > 0 then [("options", SubOptionsToList(o))] else []))
  }

  /** `[o.to_dict() for o in option.options]`. */
  function SubOptionsToList(o: CommandOption): (r: Value)
    ensures r.List? && |r.items| == |o.options|
    decreases o, 0
  {
    List(seq(|o.options|, i requires 0 <= i < |o.options| => OptionToDict(o.options[i])))
  }

  const ChoiceKeys: set<string> := {"name", "value"}
  const OptionKeys: set<string> := {"name", "description", "type", "required", "choices", "options"}

  /** `OptionChoice(**payload)`. */
  function ChoiceFromDict(v: Value): Result<OptionChoice, Error> {
    match v
    case Dict(d) =>
      if !OnlyKeys(d, ChoiceKeys) then Failure(UnexpectedArgument(FirstUnknownKey(d, ChoiceKeys)))
      else if !HasKey(d, "name") then Failure(MissingArgument("name"))
      else if !HasKey(d, "value") then Failure(MissingArgument("value"))
      else (
        match (Get(d, "name").value, Get(d, "value").value)
        case (Str(n), Str(s)) => Success(OptionChoice(n, StrValue(s)))
        case (Str(n), Int(i)) => Success(OptionChoice(n, IntValue(i)))
        case (Str(_), _) => Failure(UnsupportedValue("value"))
        case _ => Failure(UnsupportedValue("name")))
    case _ => Failure(NotAMapping)
  }

  function ChoicesFromList(v: Value): Result<seq<OptionChoice>, Error> {
    match v
    case List(items) => Collect(seq(|items|, i requires 0 <= i < |items| => ChoiceFromDict(items[i])))
    case _ => Failure(UnsupportedValue("choices"))
  }

  function DescriptionFromValue(v: Option<Value>): Result<Option<string>, Error> {
    match v
    case None => Success(None)
    case Some(Null) => Success(None)
    case Some(Str(s)) => Success(Some(s))
    case Some(_) => Failure(UnsupportedValue("description"))
  }

  function TypeFromValue(v: Option<Value>): Result<Option<int>, Error> {
    match v
    case None => Success(None)
    case Some(Null) => Success(None)
    case Some(Int(t)) => Success(Some(t))
    case Some(_) => Failure(UnsupportedValue("type"))
  }

  function RequiredFromValue(v: Option<Value>): Result<bool, Error> {
    match v
    case None => Success(false)
    case Some(Bool(b)) => Success(b)
    case Some(_) => Failure(UnsupportedValue("required"))
  }

  /** The `choices` argument `Option.from_dict` hands to the constructor. */
  function ChoicesArgFromDict(d: Entries): Result<ChoicesArg, Error> {
    match Get(d, "choices")
    case None => Success(NoChoices)
    case Some(v) =>
      match ChoicesFromList(v)
      case Success(cs) => Success(ChoiceObjects(cs))
      case Failure(e) => Failure(e)
  }

  /** `Option(**payload)` once nested values are parsed: keyword binding, then the constructor. */
  function BindOption(d: Entries, choices: ChoicesArg, options: Option<seq<CommandOption>>): (r: Result<CommandOption, Error>)
    ensures r.Success? ==> IsLower(r.value.name) && r.value.options == options.GetOr([])
  {
    if !OnlyKeys(d, OptionKeys) then Failure(UnexpectedArgument(FirstUnknownKey(d, OptionKeys)))
    else
      match (Get(d, "name"), DescriptionFromValue(Get(d, "description")),
             TypeFromValue(Get(d, "type")), RequiredFromValue(Get(d, "required")))
      case (None, _, _, _) => Failure(MissingArgument("name"))
      case (Some(Str(name)), Success(description), Success(optionType), Success(required)) =>
        NewOption(name, description, optionType, required, choices, options)
      case (Some(Str(_)), Failure(e), _, _) => Failure(e)
      case (Some(Str(_)), _, Failure(e), _) => Failure(e)
      case (Some(Str(_)), _, _, Failure(e)) => Failure(e)
      case (Some(_), _, _, _) => Failure(UnsupportedValue("name"))
  }

  /** The part of `Option.from_dict` after the nested options are parsed. */
  function OptionFromParsed(d: Entries, options: Option<seq<CommandOption>>): (r: Result<CommandOption, Error>)
    ensures r.Success? ==> IsLower(r.value.name) && r.value.options == options.GetOr([])
  {
    match ChoicesArgFromDict(d)
    case Success(choices) => BindOption(d, choices, options)
    case Failure(e) => Failure(e)
  }

  /** `Option.from_dict`: nested options first, recursively, then the rest. */
  function OptionFromDict(v: Value): (r: Result<CommandOption, Error>)
    ensures !v.Dict? ==> r == Failure(NotAMapping)
    ensures r.Success? ==> WellFormedOption(r.value)
    decreases v
  {
    match v
    case Dict(d) =>
      var io := Find(d, "options");
      var options :- (
        if io < |d| then
          match d[io].1
          case List(items) =>
            var os :- Collect(seq(|items|, i requires 0 <= i < |items| => OptionFromDict(items[i])));
            Success(Some(os))
          case _ => Failure(UnsupportedValue("options"))
        else Success(None));
      OptionFromParsed(d, options)
    case _ => Failure(NotAMapping)
  }

  // ---------------------------------------------------------------------
  // Round trip

  lemma ChoiceRoundTrip(c: OptionChoice)
    ensures ChoiceFromDict(ChoiceToDict(c)) == Success(c)
  {
    var d := ChoiceToDict(c).entries;
    GetFirst(d, "name");
    GetConcat(d[..1], d[1..], "value");
    assert d[..1] + d[1..] == d;
    GetFirst(d[1..], "value");
  }

  lemma ChoicesRoundTrip(cs: seq<OptionChoice>)
    ensures ChoicesFromList(ChoicesToList(cs)) == Success(cs)
  {
    var items := ChoicesToList(cs).items;
    var rs := seq(|items|, i requires 0 <= i < |items| => ChoiceFromDict(items[i]));
    forall i | 0 <= i < |cs| ensures rs[i] == Success(cs[i]) {
      ChoiceRoundTrip(cs[i]);
    }
    var r := Collect(rs);
    assert r.value == cs;
  }

  lemma GetFromHead(a: Entries, k: string)
    requires |a| == 3 && a[0].0 == "name" && a[1].0 == "description" && a[2].0 == "type"
    ensures k == "name" ==> Get(a, k) == Some(a[0].1)
    ensures k == "description" ==> Get(a, k) == Some(a[1].1)
    ensures k == "type" ==> Get(a, k) == Some(a[2].1)
    ensures k !in {"name", "description", "type"} ==> !HasKey(a, k)
  {
  }

  /** The three keys `to_dict` always writes. */
  lemma OptionToDictHeadKeys(o: CommandOption)
    ensures var d := OptionToDict(o).entries;
      && Get(d, "name") == Some(Str(o.name))
      && Get(d, "description") == Some(DescriptionToValue(o.description))
      && Get(d, "type") == Some(Int(o.optionType))
  {
    var a: Entries := [("name", Str(o.name)), ("description", DescriptionToValue(o.description)), ("type", Int(o.optionType))];
    var r: Entries := if o.required then [("required", Bool(true))] else [];
    var c: Entries := if |o.choices| > 0 then [("choices", ChoicesToList(o.choices))] else [];
    var p: Entries := if |o.options| > 0 then [("options", SubOptionsToList(o))] else [];
    assert OptionToDict(o).entries == a + r + c + p;
    GetFromHead(a, "name");
    GetFromHead(a, "description");
    GetFromHead(a, "type");
    GetConcat4(a, r, c, p, "name");
    GetConcat4(a, r, c, p, "description");
    GetConcat4(a, r, c, p, "type");
  }

  /** The three keys `to_dict` writes only for a set flag or a non-empty list. */
  lemma OptionToDictOptionalKeys(o: CommandOption)
    ensures var d := OptionToDict(o).entries;
      && Get(d, "required") == (if o.required then Some(Bool(true)) else None)
      && Get(d, "choices") == (if |o.choices| > 0 then Some(ChoicesToList(o.choices)) else None)
      && Get(d, "options") == (if |o.options| > 0 then Some(SubOptionsToList(o)) else None)
  {
    var a: Entries := [("name", Str(o.name)), ("description", DescriptionToValue(o.description)), ("type", Int(o.optionType))];
    var r: Entries := if o.required then [("required", Bool(true))] else [];
    var c: Entries := if |o.choices| > 0 then [("choices", ChoicesToList(o.choices))] else [];
    var p: Entries := if |o.options| > 0 then [("options", SubOptionsToList(o))] else [];
    assert OptionToDict(o).entries == a + r + c + p;
    GetFromHead(a, "required");
    GetFromHead(a, "choices");
    GetFromHead(a, "options");
    GetConcat4(a, r, c, p, "required");
    GetConcat4(a, r, c, p, "choices");
    GetConcat4(a, r, c, p, "options");
  }

  /**
   Which keys `Option.to_dict` emits and with what values: `name`,
   `description` and `type` always; `required` only when true; `choices`
   and `options` only when non-empty; nothing else.
   */
  lemma OptionToDictKeys(o: CommandOption)
    ensures OptionToDict(o).Dict?
    ensures var d := OptionToDict(o).entries;
      && Get(d, "name") == Some(Str(o.name))
      && Get(d, "description") == Some(DescriptionToValue(o.description))
      && Get(d, "type") == Some(Int(o.optionType))
      && Get(d, "required") == (if o.required then Some(Bool(true)) else None)
      && Get(d, "choices") == (if |o.choices| > 0 then Some(ChoicesToList(o.choices)) else None)
      && Get(d, "options") == (if |o.options| > 0 then Some(SubOptionsToList(o)) else None)
      && OnlyKeys(d, OptionKeys)
  {
    OptionToDictHeadKeys(o);
    OptionToDictOptionalKeys(o);
    OptionToDictOnlyKeys(o);
  }

  /** `to_dict` writes no key the constructor does not accept. */
  lemma OptionToDictOnlyKeys(o: CommandOption)
    ensures OnlyKeys(OptionToDict(o).entries, OptionKeys)
  {
    var a: Entries := [("name", Str(o.name)), ("description", DescriptionToValue(o.description)), ("type", Int(o.optionType))];
    var r: Entries := if o.required then [("required", Bool(true))] else [];
    var c: Entries := if |o.choices| > 0 then [("choices", ChoicesToList(o.choices))] else [];
    var p: Entries := if |o.options| > 0 then [("options", SubOptionsToList(o))] else [];
    assert OptionToDict(o).entries == a + r + c + p;
    OnlyKeysConcat(a, r, OptionKeys);
    OnlyKeysConcat(a + r, c, OptionKeys);
    OnlyKeysConcat(a + r + c, p, OptionKeys);
  }


  /** Keyword binding of a payload whose keys all decode: the constructor gets exactly the decoded values. */
  lemma BindOptionOfKeys(
    d: Entries, name: string, description: Option<string>, optionType: int, required: bool,
    choices: ChoicesArg, options: Option<seq<CommandOption>>)
    requires OnlyKeys(d, OptionKeys)
    requires Get(d, "name") == Some(Str(name))
    requires DescriptionFromValue(Get(d, "description")) == Success(description)
    requires TypeFromValue(Get(d, "type")) == Success(Some(optionType))
    requires RequiredFromValue(Get(d, "required")) == Success(required)
    ensures BindOption(d, choices, options) == NewOption(name, description, Some(optionType), required, choices, options)
  {
  }

  lemma OptionFromParsedOfToDict(o: CommandOption, options: Option<seq<CommandOption>>)
    requires IsLower(o.name)
    requires options.GetOr([]) == o.options
    ensures OptionFromParsed(OptionToDict(o).entries, options).Success?
    ensures OptionFromParsed(OptionToDict(o).entries, options).value == o
  {
    var d := OptionToDict(o).entries;
    OptionToDictKeys(o);
    var choices := if |o.choices| > 0 then ChoiceObjects(o.choices) else NoChoices;
    OptionToDictDecodes(o);
    assert NormaliseChoices(choices) == o.choices;
    BindOptionOfKeys(d, o.name, o.description, o.optionType, o.required, choices, options);
  }

  /** Every value `to_dict` writes decodes back to the field it came from. */
  lemma OptionToDictDecodes(o: CommandOption)
    ensures var d := OptionToDict(o).entries;
      && ChoicesArgFromDict(d) == Success(if |o.choices| > 0 then ChoiceObjects(o.choices) else NoChoices)
      && DescriptionFromValue(Get(d, "description")) == Success(o.description)
      && TypeFromValue(Get(d, "type")) == Success(Some(o.optionType))
      && RequiredFromValue(Get(d, "required")) == Success(o.required)
  {
    OptionToDictHeadKeys(o);
    OptionToDictOptionalKeys(o);
    DecodesOfKeys(OptionToDict(o).entries, o);
  }

  /** The decoders undo the encoders, key by key, in any payload holding `o`'s values. */
  lemma DecodesOfKeys(d: Entries, o: CommandOption)
    requires Get(d, "description") == Some(DescriptionToValue(o.description))
    requires Get(d, "type") == Some(Int(o.optionType))
    requires Get(d, "required") == (if o.required then Some(Bool(true)) else None)
    requires Get(d, "choices") == (if |o.choices| > 0 then Some(ChoicesToList(o.choices)) else None)
    ensures ChoicesArgFromDict(d) == Success(if |o.choices| > 0 then ChoiceObjects(o.choices) else NoChoices)
    ensures DescriptionFromValue(Get(d, "description")) == Success(o.description)
    ensures TypeFromValue(Get(d, "type")) == Success(Some(o.optionType))
    ensures RequiredFromValue(Get(d, "required")) == Success(o.required)
  {
    ChoicesRoundTrip(o.choices);
  }

  /**
   `Option.from_dict(o.to_dict()) == o` for every option whose names are
   lower-case, which is every option the constructor can build.
   */
  lemma {:induction false} OptionRoundTrip(o: CommandOption)
    requires WellFormedOption(o)
    ensures OptionFromDict(OptionToDict(o)) == Success(o)
    decreases o
  {
    OptionToDictKeys(o);
    OptionFromParsedOfToDict(o, if |o.options| > 0 then Some(o.options) else None);
    var d := OptionToDict(o).entries;
    if |o.options| > 0 {
      forall i | 0 <= i < |o.options| ensures OptionFromDict(OptionToDict(o.options[i])) == Success(o.options[i]) {
        OptionRoundTrip(o.options[i]);
      }
      CollectSubOptions(o);
    }
  }

  /** Parsing every serialised sub-option back collects exactly the sub-options. */
  lemma CollectSubOptions(o: CommandOption)
    requires forall i :: 0 <= i < |o.options| ==> OptionFromDict(OptionToDict(o.options[i])) == Success(o.options[i])
    ensures var items := SubOptionsToList(o).items;
      Collect(seq(|items|, i requires 0 <= i < |items| => OptionFromDict(items[i]))) == Success(o.options)
  {
    var items := SubOptionsToList(o).items;
    var rs := seq(|items|, i requires 0 <= i < |items| => OptionFromDict(items[i]));
    assert forall i :: 0 <= i < |rs| ==> rs[i] == Success(o.options[i]);
    assert Collect(rs).value == o.options;
  }

  // ---------------------------------------------------------------------
  // Option lists, as `SlashCommand` serialises and parses them

  /** `[o.to_dict() for o in options]`. */
  function OptionsToList(os: seq<CommandOption>): (r: Value)
    ensures r.List? && |r.items| == |os|
  {
    List(seq(|os|, i requires 0 <= i < |os| => OptionToDict(os[i])))
  }

  /** `[Option.from_dict(p) for p in payload]`. */
  function OptionsFromList(v: Value): (r: Result<seq<CommandOption>, Error>)
    ensures r.Success? ==> v.List? && |r.value| == |v.items|
    ensures r.Success? ==> forall i :: 0 <= i < |r.value| ==> WellFormedOption(r.value[i])
  {
    match v
    case List(items) => Collect(seq(|items|, i requires 0 <= i < |items| => OptionFromDict(items[i])))
    case _ => Failure(UnsupportedValue("options"))
  }

  /**
   `add_choice` keeps an option well formed and well nested, its `to_dict`
   gains exactly the new choice's dict at the end of `choices`, and the
   result still round-trips.
   */
  lemma AddChoiceKeepsOption(o: CommandOption, name: string, value: ChoiceValue)
    ensures WellFormedOption(o) ==> WellFormedOption(AddChoice(o, name, value))
    ensures NestingHolds(o) ==> NestingHolds(AddChoice(o, name, value))
    ensures Get(OptionToDict(AddChoice(o, name, value)).entries, "choices")
      == Some(List(ChoicesToList(o.choices).items + [ChoiceToDict(OptionChoice(name, value))]))
    ensures WellFormedOption(o) ==>
      OptionFromDict(OptionToDict(AddChoice(o, name, value))) == Success(AddChoice(o, name, value))
  {
    var r := AddChoice(o, name, value);
    assert r.options == o.options && r.name == o.name && r.optionType == o.optionType;
    OptionToDictOptionalKeys(r);
    assert ChoicesToList(r.choices).items == ChoicesToList(o.choices).items + [ChoiceToDict(OptionChoice(name, value))];
    if WellFormedOption(o) {
      OptionRoundTrip(r);
    }
  }

  lemma OptionsRoundTrip(os: seq<CommandOption>)
    requires forall i :: 0 <= i < |os| ==> WellFormedOption(os[i])
    ensures OptionsFromList(OptionsToList(os)).Success?
    ensures OptionsFromList(OptionsToList(os)).value == os
  {
    var items := OptionsToList(os).items;
    var rs := seq(|items|, i requires 0 <= i < |items| => OptionFromDict(items[i]));
    forall i | 0 <= i < |os| ensures rs[i] == Success(os[i]) {
      OptionRoundTrip(os[i]);
    }
    assert Collect(rs).value == os;
  }
}

=== FILE: payload.dfy ===
/**
 Dict-shaped payloads: the Python `dict`/`list`/scalar values that the
 application-command objects are serialised to and parsed from, and that an
 interaction carries as its option tree. A dict is an association list in
 insertion order, because Python dicts iterate in insertion order and the
 option router inspects the first entry.
 */
module Payload {
  import opened Wrappers

  datatype Value =
    | Null
    | Bool(b: bool)
    | Int(i: int)
    | Str(s: string)
    | List(items: seq<Value>)
    | Dict(entries: seq<(string, Value)>)

  type Entries = seq<(string, Value)>

  /** The Python exception a constructor or parser raises. */
  datatype Error =
    | AssertionFailed(what: string)      // a failed `assert` in a constructor
    | MissingArgument(key: string)       // TypeError: a required keyword is missing
    | UnexpectedArgument(key: string)    // TypeError: `f(**payload)` got an unknown keyword
    | KeyMissing(key: string)            // KeyError from `data[key]`
    | TypeMismatch(what: string)         // TypeError raised by the code itself
    | ValueRejected(what: string)        // ValueError raised by the code itself
    | InvalidArgument(what: string)      // disnake's InvalidArgument
    | NotAMapping                        // the payload is not a dict
    | UnsupportedValue(key: string)      // a value of a shape this model does not carry

  /** Index of the first entry with key `k`, or `|d|` when there is none. */
  function Find(d: Entries, k: string): (i: nat)
    ensures i <= |d|
    ensures i < |d| ==> d[i].0 == k
    ensures forall j :: 0 <= j < i ==> d[j].0 != k
  {
    if |d| == 0 then 0
    else if d[0].0 == k then 0
    else 1 + Find(d[1..], k)
  }

  predicate HasKey(d: Entries, k: string) {
    Find(d, k) < |d|
  }

  /** `d.get(k)`. */
  function Get(d: Entries, k: string): Option<Value> {
    var i := Find(d, k);
    if i < |d| then Some(d[i].1) else None
  }

  /** `d.get(k, default)`. */
  function GetOr(d: Entries, k: string, default: Value): Value {
    Get(d, k).GetOr(default)
  }

  lemma GetConcat(a: Entries, b: Entries, k: string)
    ensures Get(a + b, k) == if HasKey(a, k) then Get(a, k) else Get(b, k)
    ensures HasKey(a + b, k) <==> HasKey(a, k) || HasKey(b, k)
  {
    var i := Find(a + b, k);
    if HasKey(a, k) {
      var ia := Find(a, k);
      assert (a + b)[ia] == a[ia];
    } else if HasKey(b, k) {
      var ib := Find(b, k);
      assert (a + b)[|a| + ib].0 == k;
      forall j | 0 <= j < |a| + ib ensures (a + b)[j].0 != k {
        if j >= |a| { assert (a + b)[j] == b[j - |a|]; }
      }
    } else {
      forall j | 0 <= j < |a + b| ensures (a + b)[j].0 != k {
        if j >= |a| { assert (a + b)[j] == b[j - |a|]; }
      }
    }
  }

  /** Lookup in a dict built from four consecutive parts. */
  lemma GetConcat4(a: Entries, b: Entries, c: Entries, e: Entries, k: string)
    ensures Get(a + b + c + e, k) ==
      if HasKey(a, k) then Get(a, k)
      else if HasKey(b, k) then Get(b, k)
      else if HasKey(c, k) then Get(c, k)
      else Get(e, k)
  {
    GetConcat(a, b, k);
    GetConcat(a + b, c, k);
    GetConcat(a + b + c, e, k);
  }


  lemma GetFirst(d: Entries, k: string)
    requires |d| > 0 && d[0].0 == k
    ensures Get(d, k) == Some(d[0].1) && HasKey(d, k)
  {
  }

  lemma OnlyKeysConcat(a: Entries, b: Entries, allowed: set<string>)
    requires OnlyKeys(a, allowed) && OnlyKeys(b, allowed)
    ensures OnlyKeys(a + b, allowed)
  {
    forall i | 0 <= i < |a + b| ensures (a + b)[i].0 in allowed {
      if i >= |a| { assert (a + b)[i] == b[i - |a|]; }
    }
  }

  /** Every key of `d` is one of `allowed` (what `f(**d)` accepts). */
  predicate OnlyKeys(d: Entries, allowed: set<string>) {
    forall i :: 0 <= i < |d| ==> d[i].0 in allowed
  }

  /** The first key of `d` outside `allowed`, the one Python's TypeError names. */
  function FirstUnknownKey(d: Entries, allowed: set<string>): (k: string)
    requires !OnlyKeys(d, allowed)
    ensures k !in allowed && exists i :: 0 <= i < |d| && d[i].0 == k
  {
    if d[0].0 !in allowed then d[0].0 else FirstUnknownKey(d[1..], allowed)
  }

  /** Python's `v == n` for an integer `n`: `True == 1` and `False == 0`. */
  predicate PyEqualsInt(v: Value, n: int) {
    v == Int(n) || (v == Bool(true) && n == 1) || (v == Bool(false) && n == 0)
  }
}

=== FILE: permissions.dfy ===
/**
 Application-command permissions of disnake's app_commands module:
 `RawApplicationCommandPermission` with its `from_pair`, `from_dict` and
 `to_dict`, and `ApplicationCommandPermissions` with `from_pairs`,
 `from_ids`, `from_dict` and `to_dict`.
 */
module Permissions {
  import opened Wrappers
  import opened Payload

  /** Target types: 1 for a role, 2 for a user. */
  const ROLE_TARGET: int := 1
  const USER_TARGET: int := 2

  /** `RawApplicationCommandPermission`: the three fields are stored as given. */
  datatype RawPermission = RawPermission(id: Value, targetType: Value, permission: Value)

  /** `ApplicationCommandPermissions`: an ordered list of raw permissions. */
  datatype CommandPermissions = CommandPermissions(permissions: seq<RawPermission>)

  /** What `from_pair` is handed: a `Role`, a `User`, or anything else. */
  datatype Target = RoleTarget(id: int) | UserTarget(id: int) | OtherTarget

  /** `RawApplicationCommandPermission.from_pair(target, permission)`. */
  function FromPair(target: Target, permission: Value): (r: Result<RawPermission, Error>)
    ensures r.Success? <==> !target.OtherTarget? && permission.Bool?
    ensures r.Success? ==>
      && r.value.id == Int(target.id)
      && r.value.targetType == Int(if target.RoleTarget? then ROLE_TARGET else USER_TARGET)
      && r.value.permission == permission
  {
    if target.OtherTarget? then Failure(InvalidArgument("target should be Role or User"))
    else if !permission.Bool? then Failure(InvalidArgument("permission should be bool"))
    else Success(RawPermission(Int(target.id), Int(if target.RoleTarget? then ROLE_TARGET else USER_TARGET), permission))
  }

  /** `ApplicationCommandPermissions.from_pairs`: one raw permission per pair, in order. */
  function FromPairs(pairs: seq<(Target, Value)>): (r: Result<CommandPermissions, Error>)
    ensures r.Success? <==> forall i :: 0 <= i < |pairs| ==> FromPair(pairs[i].0, pairs[i].1).Success?
    ensures r.Success? ==>
      && |r.value.permissions| == |pairs|
      && forall i :: 0 <= i < |pairs| ==> Success(r.value.permissions[i]) == FromPair(pairs[i].0, pairs[i].1)
  {
    var rs := seq(|pairs|, i requires 0 <= i < |pairs| => FromPair(pairs[i].0, pairs[i].1));
    assert forall i :: 0 <= i < |pairs| ==> rs[i] == FromPair(pairs[i].0, pairs[i].1);
    var raw :- Collect(rs);
    Success(CommandPermissions(raw))
  }

  /** A failing `from_pairs` raises the error of the first pair that does not convert. */
  lemma FromPairsFailsAtFirst(pairs: seq<(Target, Value)>)
    ensures FromPairs(pairs).Failure? ==>
      exists i :: 0 <= i < |pairs| && FromPair(pairs[i].0, pairs[i].1) == Failure(FromPairs(pairs).error)
        && forall j :: 0 <= j < i ==> FromPair(pairs[j].0, pairs[j].1).Success?
  {
    var rs := seq(|pairs|, i requires 0 <= i < |pairs| => FromPair(pairs[i].0, pairs[i].1));
    assert forall i :: 0 <= i < |pairs| ==> rs[i] == FromPair(pairs[i].0, pairs[i].1);
    assert FromPairs(pairs).Failure? ==> Collect(rs).Failure? && FromPairs(pairs).error == Collect(rs).error;
  }

  /** The `(target, permission)` pairs `from_ids` stands for: every role first, then every user. */
  function IdsAsPairs(roles: seq<(int, bool)>, users: seq<(int, bool)>): (r: seq<(Target, Value)>)
    ensures |r| == |roles| + |users|
    ensures forall i :: 0 <= i < |roles| ==> r[i] == (RoleTarget(roles[i].0), Bool(roles[i].1))
    ensures forall i :: |roles| <= i < |r| ==> r[i] == (UserTarget(users[i - |roles|].0), Bool(users[i - |roles|].1))
  {
    seq(|roles|, i requires 0 <= i < |roles| => (RoleTarget(roles[i].0), Bool(roles[i].1)))
    + seq(|users|, j requires 0 <= j < |users| => (UserTarget(users[j].0), Bool(users[j].1)))
  }

  /**
   A permission list laid out as `from_ids` lays it out is what
   `from_pairs` builds from the corresponding role and user pairs.
   */
  lemma FromIdsAgreesWithFromPairs(roles: seq<(int, bool)>, users: seq<(int, bool)>, r: CommandPermissions)
    requires |r.permissions| == |roles| + |users|
    requires forall i :: 0 <= i < |roles| ==>
      r.permissions[i] == RawPermission(Int(roles[i].0), Int(ROLE_TARGET), Bool(roles[i].1))
    requires forall i :: |roles| <= i < |r.permissions| ==>
      r.permissions[i] == RawPermission(Int(users[i - |roles|].0), Int(USER_TARGET), Bool(users[i - |roles|].1))
    ensures FromPairs(IdsAsPairs(roles, users)).Success?
    ensures r == FromPairs(IdsAsPairs(roles, users)).value
  {
    var pairs := IdsAsPairs(roles, users);
    forall i | 0 <= i < |pairs| ensures FromPair(pairs[i].0, pairs[i].1) == Success(r.permissions[i]) {
    }
    var q := FromPairs(pairs).value.permissions;
    assert |q| == |r.permissions|;
    forall i | 0 <= i < |q| ensures q[i] == r.permissions[i] {
      assert Success(q[i]) == FromPair(pairs[i].0, pairs[i].1);
    }
    assert q == r.permissions;
  }

  /**
   `ApplicationCommandPermissions.from_ids(role_perms, user_perms)`: every
   role entry (type 1) in dict order, then every user entry (type 2) in
   dict order. A missing dict counts as empty.
   */
  method FromIds(rolePerms: Option<seq<(int, bool)>>, userPerms: Option<seq<(int, bool)>>)
    returns (r: CommandPermissions)
    ensures var roles := rolePerms.GetOr([]); var users := userPerms.GetOr([]);
      && |r.permissions| == |roles| + |users|
      && (forall i :: 0 <= i < |roles| ==>
            r.permissions[i] == RawPermission(Int(roles[i].0), Int(ROLE_TARGET), Bool(roles[i].1)))
      && (forall i :: |roles| <= i < |r.permissions| ==>
            r.permissions[i] == RawPermission(Int(users[i - |roles|].0), Int(USER_TARGET), Bool(users[i - |roles|].1)))
  {
    var roles := rolePerms.GetOr([]);
    var users := userPerms.GetOr([]);
    var rolesRaw := seq(|roles|, i requires 0 <= i < |roles| =>
                 RawPermission(Int(roles[i].0), Int(ROLE_TARGET), Bool(roles[i].1)));
    var raw := AppendUserPermissions(rolesRaw, users);
    r := CommandPermissions(raw);
  }

  /** The `for` loop of `from_ids`: one user entry (type 2) appended per user, in order. */
  method AppendUserPermissions(raw: seq<RawPermission>, users: seq<(int, bool)>)
    returns (r: seq<RawPermission>)
    ensures |r| == |raw| + |users|
    ensures forall i :: 0 <= i < |raw| ==> r[i] == raw[i]
    ensures forall i :: |raw| <= i < |r| ==>
      r[i] == RawPermission(Int(users[i - |raw|].0), Int(USER_TARGET), Bool(users[i - |raw|].1))
  {
    r := raw;
    var k := 0;
    while k < |users|
      invariant 0 <= k <= |users|
      invariant |r| == |raw| + k
      invariant forall i :: 0 <= i < |raw| ==> r[i] == raw[i]
      invariant forall i :: |raw| <= i < |r| ==>
                  r[i] == RawPermission(Int(users[i - |raw|].0), Int(USER_TARGET), Bool(users[i - |raw|].1))
    {
      r := r + [RawPermission(Int(users[k].0), Int(USER_TARGET), Bool(users[k].1))];
      k := k + 1;
    }
  }

  /** `RawApplicationCommandPermission.to_dict`. */
  function RawToDict(p: RawPermission): (r: Value)
    ensures r.Dict? && OnlyKeys(r.entries, {"id", "type", "permission"})
    ensures Get(r.entries, "id") == Some(p.id)
    ensures Get(r.entries, "type") == Some(p.targetType)
    ensures Get(r.entries, "permission") == Some(p.permission)
  {
    var d: Entries := [("id", p.id), ("type", p.targetType), ("permission", p.permission)];
    assert Find(d, "type") == 1;
    assert Find(d[1..], "permission") == 1;
    assert Find(d, "permission") == 2;
    Dict(d)
  }

  /** `RawApplicationCommandPermission.from_dict`: a KeyError for a missing key, other keys ignored. */
  function RawFromDict(v: Value): (r: Result<RawPermission, Error>)
    ensures r.Success? <==>
      v.Dict? && HasKey(v.entries, "id") && HasKey(v.entries, "type") && HasKey(v.entries, "permission")
    ensures v.Dict? && !HasKey(v.entries, "id") ==> r == Failure(KeyMissing("id"))
    ensures r.Success? ==>
      && Get(v.entries, "id") == Some(r.value.id)
      && Get(v.entries, "type") == Some(r.value.targetType)
      && Get(v.entries, "permission") == Some(r.value.permission)
  {
    match v
    case Dict(d) =>
      if !HasKey(d, "id") then Failure(KeyMissing("id"))
      else if !HasKey(d, "type") then Failure(KeyMissing("type"))
      else if !HasKey(d, "permission") then Failure(KeyMissing("permission"))
      else Success(RawPermission(Get(d, "id").value, Get(d, "type").value, Get(d, "permission").value))
    case _ => Failure(NotAMapping)
  }

  /** `ApplicationCommandPermissions.to_dict`. */
  function PermissionsToDict(ps: CommandPermissions): (r: Value)
    ensures r.Dict? && OnlyKeys(r.entries, {"permissions"})
    ensures Get(r.entries, "permissions").Some? && Get(r.entries, "permissions").value.List?
    ensures var items := Get(r.entries, "permissions").value.items;
      |items| == |ps.permissions| && forall i :: 0 <= i < |items| ==> items[i] == RawToDict(ps.permissions[i])
  {
    Dict([("permissions", List(seq(|ps.permissions|, i requires 0 <= i < |ps.permissions| => RawToDict(ps.permissions[i]))))])
  }

  /** `ApplicationCommandPermissions.from_dict`. */
  function PermissionsFromDict(v: Value): (r: Result<CommandPermissions, Error>)
    ensures v.Dict? && !HasKey(v.entries, "permissions") ==> r == Failure(KeyMissing("permissions"))
    ensures r.Success? ==>
      && v.Dict? && Get(v.entries, "permissions").Some? && Get(v.entries, "permissions").value.List?
      && var items := Get(v.entries, "permissions").value.items;
      && |r.value.permissions| == |items|
      && forall i :: 0 <= i < |items| ==> RawFromDict(items[i]) == Success(r.value.permissions[i])
  {
    match v
    case Dict(d) =>
      if !HasKey(d, "permissions") then Failure(KeyMissing("permissions"))
      else (
        match Get(d, "permissions").value
        case List(items) =>
          var raw :- Collect(seq(|items|, i requires 0 <= i < |items| => RawFromDict(items[i])));
          Success(CommandPermissions(raw))
        case _ => Failure(UnsupportedValue("permissions")))
    case _ => Failure(NotAMapping)
  }

  /** `from_dict(p.to_dict())` preserves id, type and permission. */
  lemma RawRoundTrip(p: RawPermission)
    ensures RawFromDict(RawToDict(p)).Success?
    ensures RawFromDict(RawToDict(p)).value == p
  {
    var d := RawToDict(p).entries;
    GetFirst(d, "id");
    GetConcat(d[..1], d[1..], "type");
    GetConcat(d[..2], d[2..], "permission");
    assert d[..1] + d[1..] == d;
    assert d[..2] + d[2..] == d;
    GetFirst(d[1..], "type");
    GetFirst(d[2..], "permission");
  }

  /** The permission list survives `to_dict`/`from_dict` entry by entry, in order. */
  lemma PermissionsRoundTrip(ps: CommandPermissions)
    ensures PermissionsFromDict(PermissionsToDict(ps)).Success?
    ensures PermissionsFromDict(PermissionsToDict(ps)).value == ps
  {
    var d := PermissionsToDict(ps).entries;
    GetFirst(d, "permissions");
    var items := Get(d, "permissions").value.items;
    var rs := seq(|items|, i requires 0 <= i < |items| => RawFromDict(items[i]));
    forall i | 0 <= i < |items| ensures rs[i] == Success(ps.permissions[i]) {
      RawRoundTrip(ps.permissions[i]);
    }
    assert Collect(rs).value == ps.permissions;
  }
}

=== FILE: router.dfy ===
/**
 `options_as_route` of disnake's slash_core module: the interaction's
 nested option mapping becomes a route of sub-command (and group) names
 plus the keyword arguments of the selected leaf. Only the first entry of
 each mapping is inspected.
 */
module Router {
  import opened Wrappers
  import opened Payload

  /** A mapping the router stops at: empty, or its first value is not a dict. */
  predicate IsLeafMapping(m: Entries) {
    |m| == 0 || !m[0].1.Dict?
  }

  /**
   The mapping reached by following `path` through first entries only:
   each name must be the key of the current mapping's first entry, and
   that entry's value a dict.
   */
  function Follow(m: Entries, path: seq<string>): Option<Entries>
    decreases |path|
  {
    if |path| == 0 then Some(m)
    else if |m| > 0 && m[0].0 == path[0] && m[0].1.Dict? then Follow(m[0].1.entries, path[1..])
    else None
  }

  /**
   `options_as_route(options)`. An empty mapping gives `((), {})`; a
   scalar first value gives an empty route with the whole mapping as kwargs.
   */
  function OptionsAsRoute(options: Entries): (r: (seq<string>, Entries))
    ensures Follow(options, r.0) == Some(r.1)
    ensures IsLeafMapping(r.1)
    ensures |options| == 0 ==> r == ([], [])
    ensures |options| > 0 && !options[0].1.Dict? ==> r == ([], options)
    decreases Dict(options)
  {
    if |options| == 0 then ([], [])
    else
      var (name, value) := options[0];
      if value.Dict? then
        var (chain, kwargs) := OptionsAsRoute(value.entries);
        ([name] + chain, kwargs)
      else ([], options)
  }

  /**
   The route is the only leaf reachable through first entries: any path
   that `Follow`s to a leaf mapping is the route, and that mapping the kwargs.
   */
  lemma {:induction false} RouteIsUniqueLeafPath(options: Entries, path: seq<string>, kwargs: Entries)
    requires Follow(options, path) == Some(kwargs)
    requires IsLeafMapping(kwargs)
    ensures OptionsAsRoute(options) == (path, kwargs)
    decreases |path|
  {
    if |path| > 0 {
      RouteIsUniqueLeafPath(options[0].1.entries, path[1..], kwargs);
      assert [path[0]] + path[1..] == path;
    }
  }

  /** `{path[0]: {path[1]: ... kwargs}}`: the option mapping that selects `path`. */
  function Nest(path: seq<string>, kwargs: Entries): Entries
    decreases |path|
  {
    if |path| == 0 then kwargs else [(path[0], Dict(Nest(path[1..], kwargs)))]
  }

  lemma {:induction false} FollowNest(path: seq<string>, kwargs: Entries)
    ensures Follow(Nest(path, kwargs), path) == Some(kwargs)
    decreases |path|
  {
    if |path| > 0 {
      FollowNest(path[1..], kwargs);
    }
  }

  /**
   Routing inverts nesting: a route and leaf kwargs, nested back into an
   option mapping, route to themselves.
   */
  lemma NestRoundTrip(path: seq<string>, kwargs: Entries)
    requires IsLeafMapping(kwargs)
    ensures OptionsAsRoute(Nest(path, kwargs)) == (path, kwargs)
  {
    FollowNest(path, kwargs);
    RouteIsUniqueLeafPath(Nest(path, kwargs), path, kwargs);
  }

  /**
   Only the first entry is inspected: entries after it never change the
   route, and change the kwargs only when the route is empty (the whole
   mapping is then the kwargs).
   */
  lemma RouteIgnoresLaterEntries(a: Entries, b: Entries)
    requires |a| > 0
    ensures OptionsAsRoute(a + b).0 == OptionsAsRoute(a).0
    ensures OptionsAsRoute(a + b).1 == if |OptionsAsRoute(a).0| == 0 then a + b else OptionsAsRoute(a).1
  {
    assert (a + b)[0] == a[0];
  }

  /** Depth 0, 1 and 2 as the platform sends them: the route has the nesting depth. */
  lemma RouteDepths(cmdArgs: Entries, sub: string, group: string)
    requires IsLeafMapping(cmdArgs)
    ensures OptionsAsRoute(cmdArgs) == ([], cmdArgs)
    ensures OptionsAsRoute([(sub, Dict(cmdArgs))]) == ([sub], cmdArgs)
    ensures OptionsAsRoute([(group, Dict([(sub, Dict(cmdArgs))]))]) == ([group, sub], cmdArgs)
  {
    NestRoundTrip([], cmdArgs);
    NestRoundTrip([sub], cmdArgs);
    NestRoundTrip([group, sub], cmdArgs);
    assert [group, sub][1..] == [sub];
  }
}

=== FILE: wrappers.dfy ===
/**
 The two failure-compatible wrappers the rest of the model is written with:
 `Option` stands for Python's `None`-or-value, `Result` for "returns a value
 or raises".
 */
module Wrappers {

  datatype Option<+T> = None | Some(value: T) {

    predicate IsFailure() {
      None?
    }

    function PropagateFailure<U>(): Option<U>
      requires None?
    {
      None
    }

    function Extract(): T
      requires Some?
    {
      value
    }

    /** Python's `x or default` for an optional value. */
    function GetOr(default: T): T {
      match this
      case Some(v) => v
      case None => default
    }
  }

  datatype Result<+T, +E> = Success(value: T) | Failure(error: E) {

    predicate IsFailure() {
      Failure?
    }

    function PropagateFailure<U>(): Result<U, E>
      requires Failure?
    {
      Failure(error)
    }

    function Extract(): T
      requires Success?
    {
      value
    }
  }

  /**
   Python's `[f(x) for x in xs]` when `f` may raise: the first failure, or
   every value in order.
   */
  function Collect<T, E>(rs: seq<Result<T, E>>): (r: Result<seq<T>, E>)
    ensures r.Success? <==> forall i :: 0 <= i < |rs| ==> rs[i].Success?
    ensures r.Success? ==> |r.value| == |rs| && forall i :: 0 <= i < |rs| ==> rs[i] == Success(r.value[i])
    ensures r.Failure? ==>
      exists i :: 0 <= i < |rs| && rs[i] == Failure(r.error) && forall j :: 0 <= j < i ==> rs[j].Success?
  {
    if |rs| == 0 then Success([])
    else match rs[0]
      case Failure(e) => Failure(e)
      case Success(x) =>
        match Collect(rs[1..])
        case Failure(e) => Failure(e)
        case Success(xs) => Success([x] + xs)
  }
}
